=== FILE: README.md ===
# Waste-bin telemetry core, modelled in Dafny

This project models the core of a medical waste-bin monitoring service. Devices
report a fill percentage, a temperature and a weight. The service classifies
each reading and raises at most one alert per reading. It keeps the bins, the
reading history and the alerts in memory, and reports aggregate statistics.

The model has three layers plus the two endpoint sequences that compose them:

- `SensorHandler` (`sensor_handler.dfy`) is the reading classifier. It covers:
  - the fill bands (normal < 60 ≤ warning < 80 ≤ critical < 95 ≤ full);
  - the safe temperature range 15–30 °C, both ends included;
  - the attention rule and payload validation;
  - the linear time-to-full estimate, with an `Infinite` case;
  - the 2–10 collection priority with its critical-location bonus.
- `AlertGenerator` (`alert_generator.dfy`) is the alert engine. It covers:
  - first-match precedence (bin_full/critical, then high_fill_level/high, then temperature_alert/medium, else none);
  - alert records and the `ALT-<bin>-<stamp>-<suffix>` id;
  - the escalation table (1, 4, 12 and 24 hours);
  - the counting summary;
  - the priority order: most severe first, older first within a severity, as an insertion sort on sequences.
- `Database` (`database.dfy`) is the store. It holds a map of bin snapshots, the key order of that map (a Python dict keeps insertion order), the append-only reading history and the alert list. Every operation is a pure store-to-store function. A ghost invariant `Valid` describes every reachable store, and each writing operation is proved to preserve it.
- `Service` (`service.dfy`) gives the call order of the two writing endpoints:
  - `Ingest`: classify, save the reading, decide, save the alert;
  - `Empty`: check the bin exists, mark it emptied, resolve its alerts.
- `Models` (`models.dfy`) holds the records and enums, and the count of unresolved alerts that both the alert summary and the store use. `Strings` (`strings.dfy`) holds Python's substring test and Python's string ordering, with the order laws the sort needs.

The clock, the random UUID suffix and the one-decimal number formatting of
alert messages are parameters: an `AlertClock` (compact stamp, ISO time,
suffix), a `now` string, and a function `fmt1: real -> string`. Fill,
temperature and weight are `real`.

Behaviours of the code worth noting:

- Emptying an unknown bin is a silent no-op in the store. The not-found answer comes from the endpoint, modelled by `Service.Empty` returning `None`.
- The store receives readings that the endpoint has already classified (app/main.py:61-64); the store does not classify them itself.
- An unknown severity never reaches the escalation default, because the code converts the level to the enum first, and that conversion raises.
- `delete_bin` answers false for any id not currently stored, including one that was deleted before.
- The priority score is never below 2, because the lowest band scores 2 (the function's docstring says 1–10).

Emptying writes a synthetic reading with fill 0 and weight 0. The waste total
sums the weights of zero-fill readings, so emptying never adds to it
(`Database.EmptyingAddsNoWaste`). Only device readings that report exactly 0 %
fill add their weight (`Service.IngestWaste`). The model keeps this behaviour
unchanged.

## Model

| member | source | states |
|---|---|---|
| SensorHandler.DetermineBinStatus | app/sensor_handler.py:47-64 | full iff fill ≥ 95, critical iff 80 ≤ fill < 95, warning iff 60 ≤ fill < 80, normal iff fill < 60; each boundary belongs to the higher band |
| SensorHandler.StatusMonotone | app/sensor_handler.py:57-64 | a fuller bin is never classified as less urgent |
| SensorHandler.StatusBoundaries | tests/test_sensor_handler.py:20-41 | the values the unit tests pin down: 0, 30 and 59.9 normal; 60, 70 and 79.9 warning; 80, 90 and 94.9 critical; 95, 99 and 100 full |
| SensorHandler.CheckTemperatureAlert | app/sensor_handler.py:67-81 | no alert exactly when 15 ≤ t ≤ 30, so 15.0 and 30.0 are safe |
| SensorHandler.NeedsAttention | app/sensor_handler.py:27-30 | a reading needs attention iff its status is critical or full or its temperature is out of range; a normal or warning bin needs attention exactly when the temperature is out of range |
| SensorHandler.ProcessSensorData | app/sensor_handler.py:10-44 | copies bin_id, timestamp, fill, temperature, weight and location unchanged; status is the fill band; needs_attention iff fill ≥ 80 or the temperature is outside 15–30 |
| SensorHandler.ProcessRoundTrip | app/sensor_handler.py:32-42 | the raw reading is recovered from the processed one, and the derived fields are consistent with it |
| SensorHandler.CheckBinStatus | app/sensor_handler.py:84-102 | echoes bin_id and fill, reports the fill band, and requires collection iff fill ≥ 80 (critical or full) |
| SensorHandler.AllPresent | app/sensor_handler.py:115-120 | the field loop succeeds iff every listed field is a key of the payload |
| SensorHandler.ValidateSensorData | app/sensor_handler.py:105-129 | rejects a payload missing any of the five fields; accepts iff all are present, fill is a number in [0,100] and weight a number ≥ 0; raises iff all fields are present and either fill is text, or fill is an in-range number and weight is text (fill is compared first) |
| SensorHandler.ValidateAgreesWithSchema | app/sensor_handler.py:115-129 | a reading's own payload is accepted iff the reading meets the schema bounds (fill in [0,100], weight ≥ 0), and it never raises |
| SensorHandler.CalculateTimeToFull | app/sensor_handler.py:132-149 | infinite iff the rate is ≤ 0; otherwise the hours h satisfy fill + rate·h = 100 |
| SensorHandler.TimeToFullExamples | tests/test_sensor_handler.py:169-187 | (50, 10) gives 5, (80, 2) gives 10, rates 0 and −1 give infinite |
| SensorHandler.GetCollectionPriority | app/sensor_handler.py:152-178 | always in [2,10]; fill ≥ 95 gives 10; the score is the band score (2, 5, 8, 10), plus 2 capped at 10 when a critical location name occurs in the location |
| SensorHandler.PriorityMonotone | app/sensor_handler.py:163-171 | for a fixed location the priority never drops as fill rises |
| SensorHandler.PriorityLocationBonus | app/sensor_handler.py:173-176 | a critical location scores min(10, ordinary score + 2), strictly more iff fill < 95 |
| SensorHandler.IsCriticalLocation | app/sensor_handler.py:174-175 | a location is critical iff one of "ICU", "ER", "OR", "Surgery" occurs in it as a substring, case-sensitively; a critical location has at least two characters |
| SensorHandler.NotCriticalWithoutInitials | app/sensor_handler.py:174-175 | a location without upper-case I, E, O or S matches no critical name, since matching is case-sensitive |
| SensorHandler.PriorityExamples | tests/test_sensor_handler.py:193-219 | "GeneralWard" at 30, 70, 85 and 98 gives 2, 5, 8 and 10; "ICU-Floor3" at 70 gives 7 |
| Strings.ContainsIffOccurs | app/sensor_handler.py:175 | the substring search is true iff some window of the location equals the name |
| Strings.Contains | app/sensor_handler.py:175 | the empty needle is in every string, and a contained needle is no longer than the haystack |
| Strings.LexLe | app/alert_generator.py:206 | Python's string `<=`: a prefix is always ≤ the longer string |
| Strings.LexLeTotal | app/alert_generator.py:206 | any two timestamps are comparable under string order |
| Strings.LexLeTransitive | app/alert_generator.py:206 | string order is transitive |
| Strings.LexLeAntisymmetric | app/alert_generator.py:206 | two timestamps each ≤ the other are equal |
| AlertGenerator.GenerateAlertId | app/alert_generator.py:93-105 | the id starts with "ALT-", the bin id, "-", the stamp and "-"; it ends with the suffix; its length is the parts plus 6 |
| AlertGenerator.AlertIdRoundTrip | app/alert_generator.py:103-105 | with a 14-character stamp and an 8-character suffix, the id parses back into bin id, stamp and suffix, even when the bin id contains dashes |
| AlertGenerator.AlertIdInjective | app/alert_generator.py:103-105 | distinct (bin, stamp, suffix) triples of standard widths give distinct ids |
| AlertGenerator.AlertIdDistinctSuffix | app/alert_generator.py:103-105 | for one bin and one stamp, distinct suffixes give distinct ids |
| AlertGenerator.CreateAlert | app/alert_generator.py:56-90 | copies bin_id, type, level, message and location; stamps the creation time; starts unresolved with no resolved_at; the id parses back to this bin, stamp and suffix |
| AlertGenerator.GenerateAlertIfNeeded | app/alert_generator.py:12-53 | no alert without needs_attention; otherwise fill ≥ 95 gives bin_full/critical with an "URGENT" message, 80 ≤ fill < 95 gives high_fill_level/high, fill < 80 with a temperature alert gives temperature_alert/medium, else none |
| AlertGenerator.ClassifiedAlertIffAttention | app/alert_generator.py:22-53 | for a classified reading an alert is raised exactly when it needs attention, and its level is critical for full, high for critical, medium otherwise |
| AlertGenerator.AlertExamples | tests/test_alert_generator.py:19-85 | fill 45 at 22 °C gives none; fill 97 gives bin_full/critical with an "URGENT" message; fill 85 gives high_fill_level/high; fill 50 at 35 °C gives temperature_alert/medium; fill 96 at 35 °C gives bin_full, not a temperature alert |
| AlertGenerator.ShouldEscalateAlert | app/alert_generator.py:108-129 | escalate iff hours ≥ 1 (critical), 4 (high), 12 (medium), 24 (low), inclusive |
| AlertGenerator.EscalationMonotone | app/alert_generator.py:129 | once escalated, an alert stays escalated for more hours |
| AlertGenerator.EscalationBySeverity | app/alert_generator.py:119-124 | a more severe alert escalates no later than a less severe one |
| AlertGenerator.EscalationThreshold | app/alert_generator.py:119-124 | every threshold lies between 1 and 24 hours; 1 hour only for critical and 24 hours only for low |
| AlertGenerator.Tally | app/alert_generator.py:174-180 | a key is in the tally iff some alert has it, its count is the number of such alerts, and the counts sum to the number of alerts |
| AlertGenerator.BumpSum | app/alert_generator.py:177 | increasing one key's count by one increases the sum of counts by one |
| AlertGenerator.GetAlertSummary | app/alert_generator.py:149-182 | total is the number of alerts; unresolved counts unresolved ones; by_level and by_type hold exactly the keys that occur, with their counts, each summing to the total; empty input gives zeros and empty maps |
| AlertGenerator.UnresolvedAtMostTotal | app/alert_generator.py:168-171 | the unresolved count never exceeds the total |
| Models.CountUnresolved | app/alert_generator.py:171 | the number of unresolved alerts never exceeds the number of alerts |
| Models.NoneUnresolved | app/alert_generator.py:171 | the unresolved count is zero iff every alert is resolved |
| AlertGenerator.PriorityLeTransitive | app/alert_generator.py:202-206 | the (severity descending, timestamp ascending) order is transitive |
| AlertGenerator.SeverityRank | app/alert_generator.py:195-200 | every level ranks between 1 and 4; rank 4 only for critical and rank 1 only for low |
| AlertGenerator.InsertByPriority | app/alert_generator.py:208 | inserting into a prioritised list adds exactly that alert and keeps the list prioritised |
| AlertGenerator.PrioritizeAlerts | app/alert_generator.py:185-208 | the result is a permutation of the input, and every alert may precede every later one |
| AlertGenerator.PrioritizedMeaning | app/alert_generator.py:195-206 | severity rank is non-increasing along the result, and timestamps are non-decreasing within equal rank |
| AlertGenerator.PrioritizeExample | tests/test_alert_generator.py:196-220 | low, critical, high come out as critical, high, low |
| AlertGenerator.PrioritizeTieBreakExample | tests/test_alert_generator.py:222-238 | of two alerts of one severity, the older comes first |
| Database.EmptyStoreValid | app/database.py:14-17 | the freshly constructed store satisfies the store invariant |
| Database.ReadingsOf | app/database.py:76-79 | keeps every reading of the bin as often as it occurs, and nothing else |
| Database.LastN | app/database.py:77 | the last ten readings, or all of them when there are fewer, as a suffix of history |
| Database.SaveSensorReading | app/database.py:19-50 | appends exactly the reading; a new bin is created from it with one reading and no last_emptied; a known bin takes its fill, weight, temperature, status and time, counts one more reading, and keeps location and last_emptied; other bins are untouched |
| Database.SaveSensorReadingPreservesValid | app/database.py:26-50 | saving a reading keeps the store invariant |
| Database.GetBinById | app/database.py:61-82 | none iff the bin is unknown; otherwise the snapshot plus exactly the readings of that bin among the last ten of global history, at most ten |
| Database.RecentReadingsAreLatestOfBin | app/database.py:76-79 | the recent readings are the latest entries of the bin's own history, in history order |
| Database.ReadingsOfConcat | app/database.py:76-79 | selecting one bin's readings distributes over concatenation, so history order is kept |
| Database.GetAllBins | app/database.py:52-59 | lists only stored snapshots |
| Database.BinsInOrder | app/database.py:59 | lists a bin iff it is stored under a key in the order |
| Database.AllBinsListsEachBin | app/database.py:52-59 | in a valid store every bin is listed, one entry per bin |
| Database.SaveAlert | app/database.py:84-91 | appends the alert and changes nothing else |
| Database.SaveAlertPreservesValid | app/database.py:84-91 | saving an alert keeps the store invariant |
| Database.ActiveAlerts | app/database.py:103-104 | keeps exactly the unresolved alerts, each as often as stored |
| Database.ActiveAlertsAppend | app/database.py:103-104 | the active filter keeps stored order: filtering a concatenation concatenates the filtered parts |
| Database.GetAlerts | app/database.py:93-105 | all alerts when active_only is false; otherwise exactly the unresolved ones |
| Database.SaveAlertThenList | app/database.py:84-105 | a saved alert is listed after all earlier ones (in the active list only while unresolved) |
| Database.ResolveAll | app/database.py:137-148 | afterwards every alert of the bin is resolved; other bins' alerts and already-resolved ones are unchanged; newly resolved ones differ only in resolved and resolved_at = now |
| Database.ResolveAlertsForBin | app/database.py:137-148 | the same on the store: alert count unchanged, bins and readings unchanged |
| Database.ResolveAlertsForBinPreservesValid | app/database.py:137-148 | resolving a bin's alerts keeps the store invariant |
| Database.ResolveIdempotent | app/database.py:144-148 | resolving twice equals resolving once, whatever the second clock reading |
| Database.ResolveClearsActive | app/database.py:144-148 | after resolution no active alert belongs to the bin |
| Database.MarkBinEmptied | app/database.py:107-135 | unknown bin: store unchanged; known bin: fill 0, weight 0, status normal, last_emptied and last_updated set, location, temperature and count kept, and one zero-fill, zero-weight, normal reading with the bin's temperature and location appended |
| Database.MarkBinEmptiedPreservesValid | app/database.py:114-135 | emptying keeps the store invariant |
| Database.EmptiedReading | app/database.py:124-134 | the synthetic reading is for this bin at the emptying time, has fill 0 and weight 0, keeps the bin's temperature and location, and flags neither collection nor attention |
| Database.DeleteBin | app/database.py:189-211 | unknown bin: false and no change; known bin: true, the bin is gone from the map and the key order, other snapshots are unchanged, history keeps exactly the other bins' entries in their order, the bin's unresolved alerts become resolved at `now` with nothing else changed, and all other alerts are unchanged |
| Database.ReadingsWithout | app/database.py:203-205 | the purge keeps every reading of another bin as often as it occurs and drops every reading of this bin |
| Database.ReadingsWithoutConcat | app/database.py:203-205 | purging one bin's readings distributes over concatenation, so history order is kept |
| Database.RemoveKey | app/database.py:200 | removing a key from the key order keeps every other key and keeps keys distinct |
| Database.DeleteBinPreservesValid | app/database.py:199-211 | deleting keeps the store invariant |
| Database.DeleteThenGet | app/database.py:199-211 | after deletion the bin is not found |
| Database.GetStatistics | app/database.py:150-187 | counts bins, active alerts, readings and alerts; the average times the number of bins is the sum of current fills over the bins, and 0 with no bins; the waste total is the sum of the weights of zero-fill history entries, non-negative when weights are |
| Database.CountNeeding | app/database.py:160-163 | at most one per key, and zero when no bin is critical or full |
| Database.SumFill | app/database.py:166-168 | zero over no keys, and non-negative when every fill is non-negative |
| Database.WasteCollected | app/database.py:173-176 | non-negative when every weight is non-negative, and zero when no reading reports 0 % fill |
| Database.SaveSensorReadingSumFill | app/database.py:26-50 | in a valid store, saving a reading replaces the bin's old fill by the reading's fill in the fill total, or adds the reading's fill for a new bin |
| Database.SumFillUpdate | app/database.py:166-168 | over distinct keys, replacing one bin's snapshot changes the fill total by exactly the change in that bin's fill |
| Database.MarkBinEmptiedSumFill | app/database.py:114-121 | emptying a known bin removes its fill from the fill total |
| Database.WasteSplit | app/database.py:173-176 | the waste total is one bin's zero-fill weights plus those of all other bins |
| Database.DeleteBinWaste | app/database.py:199-205 | deleting a bin lowers the waste total by exactly its own zero-fill weights |
| Database.StatisticsCountsBinsNeedingCollection | app/database.py:157-163 | bins_needing_collection is the number of critical or full bins, at most total_bins |
| Database.StatisticsAverageIsPercentage | app/database.py:165-170 | with every fill in [0,100] the average is in [0,100] |
| Database.WasteAppend | app/database.py:172-176 | a new history entry adds its weight to the waste total iff its fill is exactly 0 |
| Database.EmptyingAddsNoWaste | app/database.py:123-135 | emptying a bin leaves the waste total unchanged, because the synthetic reading weighs 0 |
| Database.OrderCoversBins | app/database.py:16 | in a valid store the key order has one entry per bin |
| Service.Ingest | app/main.py:59-80 | the reading is classified and appended; the saved alert is exactly the alert engine's decision on that reading, present iff fill ≥ 80 or the temperature is outside 15–30, unresolved, for this bin, and at the level the bin status dictates (critical at 96 %); the bin shows the new fill and status, its reading count goes up by one (or starts at one), and a new bin's key goes to the end of the key order; other bins are untouched |
| Service.IngestPreservesValid | app/main.py:61-78 | ingesting keeps the store invariant |
| Service.IngestThenGet | app/main.py:61-64 | the ingested reading is among its bin's recent readings, and the bin shows its fill |
| Service.IngestWaste | app/main.py:61-64 | ingesting adds the reading's weight to the waste total iff it reports 0 % fill |
| Service.IngestCriticalExample | tests/test_api_endpoints.py:46-61 | a 96 % reading from the ICU is saved with a critical alert |
| Service.Empty | app/main.py:152-167 | not found iff the bin is unknown; otherwise the bin has fill 0, weight 0, status normal, and last_emptied and last_updated set, and keeps its id, location, temperature and count; other bins and the key order are unchanged; exactly the zero-fill reading is appended; the bin's unresolved alerts are resolved at the given time with nothing else changed, others are unchanged, and no active alert of the bin is left |
| Service.EmptyPreservesValid | app/main.py:158-162 | emptying through the endpoint keeps the store invariant |
| Service.EmptyThenGet | app/main.py:153-162 | a lookup after emptying shows the emptied snapshot |

## Left out

- HTTP routing, status-code mapping, CORS and start-up (app/main.py) are plumbing. Only the call order of the two writing endpoints is modelled.
- Pydantic request schemas (app/models.py) are not modelled. Their fill and weight bounds appear as `Models.WellFormed`, and their enums as datatypes.
- The clock and `uuid.uuid4()` are parameters. Global uniqueness of alert ids is not claimed; only distinct suffixes give distinct ids.
- Message text takes the one-decimal rendering of a number as a parameter `fmt1`. `round(…, 2)` in the statistics is dropped, and numbers are exact reals rather than floats.
- Database.MarkBinEmptied: uses one clock value for last_emptied, last_updated and the synthetic reading's timestamp. The source reads the clock three times, microseconds apart.
- Database.GetBinById: returns the recent readings instead of also writing them into the stored bin dictionary, as the source does as a side effect.
- Database.GetAllBins: the contract states which snapshots are listed, not the insertion order in which they are listed.
- AlertGenerator.PrioritizeAlerts: does not state the stability of Python's sort. Alerts with equal severity and equal timestamp keep their input order in the source; the contract only says they are adjacent and in key order.
- Default values for missing fields are not modelled (`alert.get("level", "low")`, `"unknown"` keys in the summary, the unknown-level escalation default). Alerts here always carry every field and a typed level.
- SensorHandler.ValidateSensorData: payload values are numbers or text only. Other JSON kinds (booleans, null, lists) are not modelled.
- `resolve_alert` (app/alert_generator.py:132-146) only builds a dictionary from its argument and the clock, so it is not modelled. `clear_all_data` is the constructor's empty state, `Database.EMPTY_STORE`.
- The store does not enforce per-bin timestamp order on readings, and neither does the model. There is no concurrency in the source.

=== FILE: alert_generator.dfy ===
/**
 The alert engine: the first-match alert decision, alert construction and the
 alert-id format, the escalation table, the counting summary and the
 priority order of alerts.
 */
module AlertGenerator {
  import opened Models
  import Strings
  import SensorHandler

  const BIN_FULL: string := "bin_full"
  const HIGH_FILL_LEVEL: string := "high_fill_level"
  const TEMPERATURE_ALERT: string := "temperature_alert"

  /**
   The clock and randomness an alert consumes: the compact `YYYYMMDDHHMMSS`
   stamp read when the id is made, the ISO time read when the record is made,
   and the first eight characters of a random UUID.
   */
  datatype AlertClock = AlertClock(idStamp: string, createdAt: string, suffix: string)

  /** The widths the clock and the UUID produce. */
  predicate StandardWidths(c: AlertClock) {
    |c.idStamp| == 14 && |c.suffix| == 8
  }

  // ---------------------------------------------------------------------------
  // Alert identifiers
  // ---------------------------------------------------------------------------

  const ALERT_ID_PREFIX: string := "ALT-"

  /** `ALT-<bin>-<stamp>-<suffix>`. */
  function GenerateAlertId(binId: string, idStamp: string, suffix: string): (id: string)
    ensures Strings.IsPrefix(ALERT_ID_PREFIX + binId + "-" + idStamp + "-", id)
    ensures |id| == |binId| + |idStamp| + |suffix| + 6
    ensures id[|id| - |suffix|..] == suffix
  {
    ALERT_ID_PREFIX + binId + "-" + idStamp + "-" + suffix
  }

  /** Split an id of the standard widths back into bin, stamp and suffix; the bin id may itself contain dashes. */
  function ParseAlertId(id: string): Option<(string, string, string)> {
    if |id| >= 28 && id[..4] == ALERT_ID_PREFIX && id[|id| - 24] == '-' && id[|id| - 9] == '-'
    then Some((id[4..|id| - 24], id[|id| - 23..|id| - 9], id[|id| - 8..]))
    else None
  }

  /** Parsing inverts id generation whenever the stamp and suffix have their standard widths. */
  lemma AlertIdRoundTrip(binId: string, idStamp: string, suffix: string)
    requires |idStamp| == 14 && |suffix| == 8
    ensures ParseAlertId(GenerateAlertId(binId, idStamp, suffix)) == Some((binId, idStamp, suffix))
  {
    var id := GenerateAlertId(binId, idStamp, suffix);
    assert id == ALERT_ID_PREFIX + binId + "-" + idStamp + "-" + suffix;
    assert id[..4] == ALERT_ID_PREFIX;
    assert id[4..|id| - 24] == binId;
    assert id[|id| - 23..|id| - 9] == idStamp;
    assert id[|id| - 8..] == suffix;
  }

  /** Ids of the standard widths determine their parts: distinct parts give distinct ids. */
  lemma AlertIdInjective(b1: string, t1: string, s1: string, b2: string, t2: string, s2: string)
    requires |t1| == 14 && |s1| == 8 && |t2| == 14 && |s2| == 8
    requires (b1, t1, s1) != (b2, t2, s2)
    ensures GenerateAlertId(b1, t1, s1) != GenerateAlertId(b2, t2, s2)
  {
    AlertIdRoundTrip(b1, t1, s1);
    AlertIdRoundTrip(b2, t2, s2);
  }

  /** Two alerts for one bin in one second still differ when their random suffixes differ, whatever the widths. */
  lemma AlertIdDistinctSuffix(binId: string, idStamp: string, s1: string, s2: string)
    requires s1 != s2
    ensures GenerateAlertId(binId, idStamp, s1) != GenerateAlertId(binId, idStamp, s2)
  {
    var p := ALERT_ID_PREFIX + binId + "-" + idStamp + "-";
    assert GenerateAlertId(binId, idStamp, s1) == p + s1;
    assert GenerateAlertId(binId, idStamp, s2) == p + s2;
    if |s1| == |s2| {
      assert (p + s1)[|p|..] == s1;
      assert (p + s2)[|p|..] == s2;
    }
  }

  // ---------------------------------------------------------------------------
  // Alert construction and decision
  // ---------------------------------------------------------------------------

  /** A fresh, unresolved alert stamped by `clock`. */
  function CreateAlert(binId: string, alertType: string, level: AlertLevel, message: string,
                       location: string, clock: AlertClock): (a: Alert)
    ensures a.binId == binId && a.alertType == alertType && a.level == level
    ensures a.message == message && a.location == location
    ensures a.timestamp == clock.createdAt
    ensures !a.resolved && a.resolvedAt == None
    ensures Strings.IsPrefix(ALERT_ID_PREFIX + binId + "-" + clock.idStamp + "-", a.alertId)
    ensures StandardWidths(clock) ==> ParseAlertId(a.alertId) == Some((binId, clock.idStamp, clock.suffix))
  {
    var id := GenerateAlertId(binId, clock.idStamp, clock.suffix);
    assert StandardWidths(clock) ==> ParseAlertId(id) == Some((binId, clock.idStamp, clock.suffix)) by {
      if StandardWidths(clock) {
        AlertIdRoundTrip(binId, clock.idStamp, clock.suffix);
      }
    }
    Alert(id, binId, alertType, level, message,
          location, clock.createdAt, false, None)
  }

  /**
   Decide the alert for a processed reading. `fmt1` renders a number with one
   decimal place, as the message templates do. The branches are tried in
   order and the first that matches wins.
   */
  function GenerateAlertIfNeeded(p: ProcessedReading, clock: AlertClock, fmt1: real -> string): (r: Option<Alert>)
    ensures !p.needsAttention ==> r == None
    ensures p.needsAttention && p.fillLevel >= 95.0 ==>
      && r.Some? && r.value.alertType == BIN_FULL && r.value.level == AlertLevel.Critical
      && Strings.IsPrefix("URGENT", r.value.message)
    ensures p.needsAttention && 80.0 <= p.fillLevel < 95.0 ==>
      r.Some? && r.value.alertType == HIGH_FILL_LEVEL && r.value.level == High
    ensures p.needsAttention && p.fillLevel < 80.0 && p.temperatureAlert ==>
      r.Some? && r.value.alertType == TEMPERATURE_ALERT && r.value.level == Medium
    ensures p.needsAttention && p.fillLevel < 80.0 && !p.temperatureAlert ==> r == None
    ensures r.Some? ==>
      && r.value.binId == p.binId && r.value.location == p.location
      && r.value.timestamp == clock.createdAt && !r.value.resolved && r.value.resolvedAt == None
      && r.value.alertId == GenerateAlertId(p.binId, clock.idStamp, clock.suffix)
  {
    if !p.needsAttention then None
    else if p.fillLevel >= 95.0 then
      Some(CreateAlert(p.binId, BIN_FULL, AlertLevel.Critical,
        "URGENT: Bin " + p.binId + " is " + fmt1(p.fillLevel) + "% full and must be emptied immediately!",
        p.location, clock))
    else if p.fillLevel >= 80.0 then
      Some(CreateAlert(p.binId, HIGH_FILL_LEVEL, High,
        "Bin " + p.binId + " is " + fmt1(p.fillLevel) + "% full and requires collection soon",
        p.location, clock))
    else if p.temperatureAlert then
      Some(CreateAlert(p.binId, TEMPERATURE_ALERT, Medium,
        "Temperature alert for bin " + p.binId + ": " + fmt1(p.temperature) + "°C (safe range: 15-30°C)",
        p.location, clock))
    else None
  }

  /** The alert level a classified reading earns, read off its status. */
  function LevelForStatus(s: BinStatus): AlertLevel {
    match s
    case Full => AlertLevel.Critical
    case Critical => High
    case _ => Medium
  }

  /**
   For readings the classifier produced, an alert is raised exactly when the
   reading needs attention (the final no-alert branch is unreachable), and its
   level follows the reading's status.
   */
  lemma ClassifiedAlertIffAttention(d: SensorData, clock: AlertClock, fmt1: real -> string)
    ensures var p := SensorHandler.ProcessSensorData(d);
      var r := GenerateAlertIfNeeded(p, clock, fmt1);
      && (r.Some? <==> p.needsAttention)
      && (r.Some? ==> r.value.level == LevelForStatus(p.status))
  {
  }

  /** The worked cases of the alert tests, plus fill taking precedence over temperature. */
  lemma AlertExamples(clock: AlertClock, fmt1: real -> string)
    ensures GenerateAlertIfNeeded(SensorHandler.ProcessSensorData(SensorData("BIN-001", "t", 45.0, 22.0, 1.0, "L")), clock, fmt1) == None
    ensures var r := GenerateAlertIfNeeded(SensorHandler.ProcessSensorData(SensorData("BIN-002", "t", 97.0, 22.0, 1.0, "L")), clock, fmt1);
      && r.Some? && r.value.binId == "BIN-002" && r.value.alertType == BIN_FULL
      && r.value.level == AlertLevel.Critical && Strings.IsPrefix("URGENT", r.value.message)
    ensures var r := GenerateAlertIfNeeded(SensorHandler.ProcessSensorData(SensorData("B", "t", 85.0, 22.0, 1.0, "L")), clock, fmt1);
      r.Some? && r.value.alertType == HIGH_FILL_LEVEL && r.value.level == High
    ensures var r := GenerateAlertIfNeeded(SensorHandler.ProcessSensorData(SensorData("B", "t", 50.0, 35.0, 1.0, "L")), clock, fmt1);
      && r.Some? && r.value.alertType == TEMPERATURE_ALERT && r.value.level == Medium
      && Strings.IsPrefix("Temperature alert", r.value.message)
    ensures var r := GenerateAlertIfNeeded(SensorHandler.ProcessSensorData(SensorData("B", "t", 96.0, 35.0, 1.0, "L")), clock, fmt1);
      r.Some? && r.value.alertType == BIN_FULL
  {
  }

  // ---------------------------------------------------------------------------
  // Escalation
  // ---------------------------------------------------------------------------

  /** Hours an alert of each level may stay unresolved before it escalates. */
  function EscalationThreshold(level: AlertLevel): (r: real)
    ensures 1.0 <= r <= 24.0
    ensures r == 1.0 <==> level == AlertLevel.Critical
    ensures r == 24.0 <==> level == Low
  {
    match level
    case Critical => 1.0
    case High => 4.0
    case Medium => 12.0
    case Low => 24.0
  }

  /** Escalate once the alert has been open for at least its level's threshold. */
  function ShouldEscalateAlert(alert: Alert, hoursUnresolved: real): (r: bool)
    ensures alert.level == AlertLevel.Critical ==> (r <==> hoursUnresolved >= 1.0)
    ensures alert.level == High ==> (r <==> hoursUnresolved >= 4.0)
    ensures alert.level == Medium ==> (r <==> hoursUnresolved >= 12.0)
    ensures alert.level == Low ==> (r <==> hoursUnresolved >= 24.0)
  {
    hoursUnresolved >= EscalationThreshold(alert.level)
  }

  /** Once escalated, an alert stays escalated as time goes on. */
  lemma EscalationMonotone(alert: Alert, h1: real, h2: real)
    requires h1 <= h2 && ShouldEscalateAlert(alert, h1)
    ensures ShouldEscalateAlert(alert, h2)
  {
  }

  /** A more severe alert escalates no later than a less severe one. */
  lemma EscalationBySeverity(a: Alert, b: Alert, hours: real)
    requires SeverityRank(a.level) >= SeverityRank(b.level) && ShouldEscalateAlert(b, hours)
    ensures ShouldEscalateAlert(a, hours)
  {
  }

  // ---------------------------------------------------------------------------
  // Summary
  // ---------------------------------------------------------------------------

  datatype AlertSummary = AlertSummary(
    totalAlerts: nat,
    byLevel: map<AlertLevel, nat>,
    byType: map<string, nat>,
    unresolved: nat)

  function LevelOf(a: Alert): AlertLevel { a.level }
  function TypeOf(a: Alert): string { a.alertType }

  /** Number of alerts whose key is `k`. */
  function CountKey<K(==)>(alerts: seq<Alert>, key: Alert -> K, k: K): nat
    decreases |alerts|
  {
    if alerts == [] then 0
    else CountKey(alerts[..|alerts| - 1], key, k) + (if key(alerts[|alerts| - 1]) == k then 1 else 0)
  }

  /** Sum of the counts of a tally. */
  ghost function SumValues<K>(m: map<K, nat>): nat
    decreases m.Keys
  {
    if m.Keys == {} then 0
    else
      var k :| k in m;
      m[k] + SumValues(m - {k})
  }

  lemma {:induction false} SumValuesRemove<K>(m: map<K, nat>, k: K)
    requires k in m
    ensures SumValues(m) == m[k] + SumValues(m - {k})
    decreases m.Keys
  {
    var j :| j in m && SumValues(m) == m[j] + SumValues(m - {j});
    if j != k {
      SumValuesRemove(m - {j}, k);
      SumValuesRemove(m - {k}, j);
      assert m - {j} - {k} == m - {k} - {j};
    }
  }

  /** Increase the count of `k` by one, starting from zero when absent. */
  function Bump<K(==)>(m: map<K, nat>, k: K): map<K, nat> {
    m[k := (if k in m then m[k] else 0) + 1]
  }

  lemma BumpSum<K>(m: map<K, nat>, k: K)
    ensures SumValues(Bump(m, k)) == SumValues(m) + 1
  {
    var b := Bump(m, k);
    SumValuesRemove(b, k);
    if k in m {
      SumValuesRemove(m, k);
      assert b - {k} == m - {k};
    } else {
      assert b - {k} == m;
    }
  }

  /** Count alerts per key, visiting them in order as `get_alert_summary`'s loop does. */
  function Tally<K(==,!new)>(alerts: seq<Alert>, key: Alert -> K): (r: map<K, nat>)
    ensures forall k :: k in r <==> CountKey(alerts, key, k) > 0
    ensures forall k :: k in r ==> r[k] == CountKey(alerts, key, k)
    ensures SumValues(r) == |alerts|
    decreases |alerts|
  {
    if alerts == [] then map[]
    else
      var prefix := Tally(alerts[..|alerts| - 1], key);
      BumpSum(prefix, key(alerts[|alerts| - 1]));
      Bump(prefix, key(alerts[|alerts| - 1]))
  }

  /** Totals by level and by type, and the unresolved count. */
  function GetAlertSummary(alerts: seq<Alert>): (s: AlertSummary)
    ensures s.totalAlerts == |alerts|
    ensures s.unresolved == CountUnresolved(alerts)
    ensures forall l :: l in s.byLevel <==> CountKey(alerts, LevelOf, l) > 0
    ensures forall l :: l in s.byLevel ==> s.byLevel[l] == CountKey(alerts, LevelOf, l)
    ensures forall t :: t in s.byType <==> CountKey(alerts, TypeOf, t) > 0
    ensures forall t :: t in s.byType ==> s.byType[t] == CountKey(alerts, TypeOf, t)
    ensures SumValues(s.byLevel) == s.totalAlerts && SumValues(s.byType) == s.totalAlerts
    ensures alerts == [] ==> s == AlertSummary(0, map[], map[], 0)
  {
    if alerts == [] then AlertSummary(0, map[], map[], 0)
    else AlertSummary(|alerts|, Tally(alerts, LevelOf), Tally(alerts, TypeOf), CountUnresolved(alerts))
  }

  /** No alert is counted twice: unresolved ones are a part of the total. */
  lemma {:induction false} UnresolvedAtMostTotal(alerts: seq<Alert>)
    ensures GetAlertSummary(alerts).unresolved <= GetAlertSummary(alerts).totalAlerts
  {
  }

  // ---------------------------------------------------------------------------
  // Prioritisation
  // ---------------------------------------------------------------------------

  /** Sort rank of a severity: critical 4, high 3, medium 2, low 1. */
  function SeverityRank(l: AlertLevel): (r: nat)
    ensures 1 <= r <= 4
    ensures r == 4 <==> l == AlertLevel.Critical
    ensures r == 1 <==> l == Low
  {
    match l
    case Critical => 4
    case High => 3
    case Medium => 2
    case Low => 1
  }

  /** `a` may come before `b`: strictly more severe, or equally severe and not newer. */
  predicate PriorityLe(a: Alert, b: Alert) {
    SeverityRank(a.level) > SeverityRank(b.level)
    || (SeverityRank(a.level) == SeverityRank(b.level) && Strings.LexLe(a.timestamp, b.timestamp))
  }

  lemma PriorityLeTotal(a: Alert, b: Alert)
    ensures PriorityLe(a, b) || PriorityLe(b, a)
  {
    Strings.LexLeTotal(a.timestamp, b.timestamp);
  }

  lemma PriorityLeTransitive(a: Alert, b: Alert, c: Alert)
    requires PriorityLe(a, b) && PriorityLe(b, c)
    ensures PriorityLe(a, c)
  {
    if SeverityRank(a.level) == SeverityRank(b.level) == SeverityRank(c.level) {
      Strings.LexLeTransitive(a.timestamp, b.timestamp, c.timestamp);
    }
  }

  /** Every alert may come before every later one. */
  predicate Prioritized(s: seq<Alert>) {
    forall i, j :: 0 <= i < j < |s| ==> PriorityLe(s[i], s[j])
  }

  /** Insert `x` before the first alert it may precede. */
  function InsertByPriority(x: Alert, s: seq<Alert>): (r: seq<Alert>)
    requires Prioritized(s)
    ensures multiset(r) == multiset(s) + multiset{x}
    ensures Prioritized(r)
    decreases |s|
  {
    if s == [] then [x]
    else if PriorityLe(x, s[0]) then
      PrependKeepsPrioritized(x, s);
      [x] + s
    else
      var rest := InsertByPriority(x, s[1..]);
      InsertAfterHead(x, s, rest);
      [s[0]] + rest
  }

  lemma PrependKeepsPrioritized(x: Alert, s: seq<Alert>)
    requires Prioritized(s) && s != [] && PriorityLe(x, s[0])
    ensures Prioritized([x] + s)
  {
    forall j | 0 <= j < |s|
      ensures PriorityLe(x, s[j])
    {
      if j > 0 {
        PriorityLeTransitive(x, s[0], s[j]);
      }
    }
  }

  /** Keeping the head in front of the insertion into the tail keeps the order and the contents. */
  lemma InsertAfterHead(x: Alert, s: seq<Alert>, rest: seq<Alert>)
    requires Prioritized(s) && s != [] && !PriorityLe(x, s[0])
    requires Prioritized(rest) && multiset(rest) == multiset(s[1..]) + multiset{x}
    ensures Prioritized([s[0]] + rest)
    ensures multiset([s[0]] + rest) == multiset(s) + multiset{x}
  {
    PriorityLeTotal(x, s[0]);
    forall j | 0 <= j < |rest|
      ensures PriorityLe(s[0], rest[j])
    {
      assert rest[j] in multiset(rest);
      if rest[j] != x {
        assert rest[j] in multiset(s[1..]);
        assert rest[j] in s[1..];
      }
    }
    assert s == [s[0]] + s[1..];
  }


  /** The alerts in priority order: most severe first, oldest first within a severity. */
  function PrioritizeAlerts(alerts: seq<Alert>): (r: seq<Alert>)
    ensures multiset(r) == multiset(alerts)
    ensures Prioritized(r)
    decreases |alerts|
  {
    if alerts == [] then []
    else
      assert alerts == [alerts[0]] + alerts[1..];
      InsertByPriority(alerts[0], PrioritizeAlerts(alerts[1..]))
  }

  /** What the order means, position by position. */
  lemma PrioritizedMeaning(alerts: seq<Alert>, i: int, j: int)
    requires 0 <= i < j < |PrioritizeAlerts(alerts)|
    ensures var r := PrioritizeAlerts(alerts);
      && SeverityRank(r[i].level) >= SeverityRank(r[j].level)
      && (SeverityRank(r[i].level) == SeverityRank(r[j].level) ==> Strings.LexLe(r[i].timestamp, r[j].timestamp))
  {
  }

  /** The test case: critical first, then high, then low, whatever their timestamps. */
  lemma PrioritizeExample(low: Alert, critical: Alert, high: Alert)
    requires low.level == Low && critical.level == AlertLevel.Critical && high.level == High
    ensures PrioritizeAlerts([low, critical, high]) == [critical, high, low]
  {
    var r := PrioritizeAlerts([low, critical, high]);
    assert multiset(r) == multiset{low, critical, high};
    assert |r| == 3 by {
      assert |multiset(r)| == 3;
    }
    assert r[0] in multiset(r) && r[1] in multiset(r) && r[2] in multiset(r);
    assert PriorityLe(r[0], r[1]) && PriorityLe(r[1], r[2]) && PriorityLe(r[0], r[2]);
  }

  /** The test case for one severity: the older of two alerts comes first. */
  lemma PrioritizeTieBreakExample(newer: Alert, older: Alert)
    requires newer.level == older.level
    requires Strings.LexLe(older.timestamp, newer.timestamp) && older.timestamp != newer.timestamp
    ensures PrioritizeAlerts([newer, older]) == [older, newer]
  {
    var r := PrioritizeAlerts([newer, older]);
    assert multiset(r) == multiset{newer, older};
    assert |r| == 2 by {
      assert |multiset(r)| == 2;
    }
    assert r[0] in multiset(r) && r[1] in multiset(r);
    assert PriorityLe(r[0], r[1]);
    if r[0] == newer {
      Strings.LexLeAntisymmetric(older.timestamp, newer.timestamp);
    }
  }
}

=== FILE: database.dfy ===
/**
 The in-memory store: bin snapshots keyed by bin id (kept in insertion order,
 as a Python dict is), the append-only history of processed readings and the
 list of alerts. Every operation is a pure function from store to store; the
 clock readings it needs are parameters.
 */
module Database {
  import opened Models

  datatype Store = Store(
    bins: map<string, Bin>,
    binOrder: seq<string>,
    readings: seq<ProcessedReading>,
    alerts: seq<Alert>)

  /** The store as constructed: no bins, no readings, no alerts. */
  const EMPTY_STORE: Store := Store(map[], [], [], [])

  /** Size of the window of most recent readings searched by a bin lookup. */
  const RECENT_WINDOW: nat := 10

  // ---------------------------------------------------------------------------
  // Selections over the collections
  // ---------------------------------------------------------------------------

  predicate Distinct(q: seq<string>) {
    forall i, j :: 0 <= i < j < |q| ==> q[i] != q[j]
  }

  /** The readings of bin `id`, in history order. */
  function ReadingsOf(rs: seq<ProcessedReading>, id: string): (r: seq<ProcessedReading>)
    ensures |r| <= |rs|
    ensures forall x {:trigger multiset(r)[x]} :: multiset(r)[x] == if x.binId == id then multiset(rs)[x] else 0
  {
    if rs == [] then []
    else
      assert rs == [rs[0]] + rs[1..];
      (if rs[0].binId == id then [rs[0]] else []) + ReadingsOf(rs[1..], id)
  }

  /** The readings of every bin but `id`, in history order. */
  function ReadingsWithout(rs: seq<ProcessedReading>, id: string): (r: seq<ProcessedReading>)
    ensures |r| <= |rs|
    ensures forall x {:trigger multiset(r)[x]} :: multiset(r)[x] == if x.binId != id then multiset(rs)[x] else 0
  {
    if rs == [] then []
    else
      assert rs == [rs[0]] + rs[1..];
      (if rs[0].binId != id then [rs[0]] else []) + ReadingsWithout(rs[1..], id)
  }

  /** The unresolved alerts, in stored order. */
  function ActiveAlerts(alerts: seq<Alert>): (r: seq<Alert>)
    ensures |r| == CountUnresolved(alerts)
    ensures forall x {:trigger multiset(r)[x]} :: multiset(r)[x] == if x.resolved then 0 else multiset(alerts)[x]
  {
    if alerts == [] then []
    else
      assert alerts == [alerts[0]] + alerts[1..];
      (if alerts[0].resolved then [] else [alerts[0]]) + ActiveAlerts(alerts[1..])
  }

  /** The key order with `id` taken out. */
  function RemoveKey(q: seq<string>, id: string): (r: seq<string>)
    ensures forall k :: k in r <==> k in q && k != id
    ensures Distinct(q) ==> Distinct(r)
  {
    if q == [] then []
    else
      var rest := RemoveKey(q[1..], id);
      assert Distinct(q) ==> q[0] !in q[1..];
      if q[0] == id then rest else [q[0]] + rest
  }

  /** The last `n` entries, or all of them when there are fewer (Python's `rs[-n:]`). */
  function LastN(rs: seq<ProcessedReading>, n: nat): (w: seq<ProcessedReading>)
    ensures |w| <= n
    ensures |rs| <= n ==> w == rs
    ensures |rs| >= n ==> |w| == n
    ensures rs == rs[..|rs| - |w|] + w
  {
    if |rs| <= n then rs else rs[|rs| - n..]
  }

  // ---------------------------------------------------------------------------
  // Store invariant
  // ---------------------------------------------------------------------------

  /**
   Reachable stores: the key order lists each bin exactly once, each snapshot
   is filed under its own id and has counted at least one and at most as many
   readings as history holds for it, and every history entry names a known bin.
   */
  ghost predicate Valid(s: Store) {
    && Distinct(s.binOrder)
    && (forall k :: k in s.bins <==> k in s.binOrder)
    && (forall k :: k in s.bins ==>
          s.bins[k].binId == k && 1 <= s.bins[k].totalReadings <= |ReadingsOf(s.readings, k)|)
    && (forall i :: 0 <= i < |s.readings| ==> s.readings[i].binId in s.bins)
  }

  lemma EmptyStoreValid()
    ensures Valid(EMPTY_STORE)
  {
  }

  lemma {:induction false} ReadingsOfAppend(rs: seq<ProcessedReading>, x: ProcessedReading, id: string)
    ensures ReadingsOf(rs + [x], id) == ReadingsOf(rs, id) + (if x.binId == id then [x] else [])
    decreases |rs|
  {
    if rs == [] {
      assert ReadingsOf([x], id) == (if x.binId == id then [x] else []) + ReadingsOf([], id);
    } else {
      var head := if rs[0].binId == id then [rs[0]] else [];
      var tail := if x.binId == id then [x] else [];
      assert (rs + [x])[0] == rs[0];
      assert (rs + [x])[1..] == rs[1..] + [x];
      ReadingsOfAppend(rs[1..], x, id);
      calc {
        ReadingsOf(rs + [x], id);
        head + ReadingsOf(rs[1..] + [x], id);
        head + (ReadingsOf(rs[1..], id) + tail);
        (head + ReadingsOf(rs[1..], id)) + tail;
        ReadingsOf(rs, id) + tail;
      }
    }
  }

  lemma {:induction false} ReadingsOfWithout(rs: seq<ProcessedReading>, id: string, k: string)
    requires k != id
    ensures ReadingsOf(ReadingsWithout(rs, id), k) == ReadingsOf(rs, k)
    decreases |rs|
  {
    if rs != [] {
      ReadingsOfWithout(rs[1..], id, k);
      var kept := ReadingsWithout(rs[1..], id);
      if rs[0].binId != id {
        assert ReadingsWithout(rs, id) == [rs[0]] + kept;
        assert ([rs[0]] + kept)[0] == rs[0];
        assert ([rs[0]] + kept)[1..] == kept;
      } else {
        assert ReadingsWithout(rs, id) == kept;
      }
    }
  }

  lemma {:induction false} ActiveAlertsAppend(a: seq<Alert>, b: seq<Alert>)
    ensures ActiveAlerts(a + b) == ActiveAlerts(a) + ActiveAlerts(b)
    decreases |a|
  {
    if a != [] {
      assert (a + b)[1..] == a[1..] + b;
      ActiveAlertsAppend(a[1..], b);
    } else {
      assert a + b == b;
    }
  }

  /** Selecting one bin's readings keeps history order: it distributes over concatenation. */
  lemma {:induction false} ReadingsOfConcat(a: seq<ProcessedReading>, b: seq<ProcessedReading>, id: string)
    ensures ReadingsOf(a + b, id) == ReadingsOf(a, id) + ReadingsOf(b, id)
    decreases |a|
  {
    if a == [] {
      assert a + b == b;
    } else {
      var head := if a[0].binId == id then [a[0]] else [];
      assert (a + b)[0] == a[0];
      assert (a + b)[1..] == a[1..] + b;
      ReadingsOfConcat(a[1..], b, id);
      calc {
        ReadingsOf(a + b, id);
        head + ReadingsOf(a[1..] + b, id);
        head + (ReadingsOf(a[1..], id) + ReadingsOf(b, id));
        (head + ReadingsOf(a[1..], id)) + ReadingsOf(b, id);
      }
    }
  }

  /** Purging one bin's readings keeps history order: it distributes over concatenation. */
  lemma {:induction false} ReadingsWithoutConcat(a: seq<ProcessedReading>, b: seq<ProcessedReading>, id: string)
    ensures ReadingsWithout(a + b, id) == ReadingsWithout(a, id) + ReadingsWithout(b, id)
    decreases |a|
  {
    if a == [] {
      assert a + b == b;
    } else {
      assert (a + b)[0] == a[0];
      assert (a + b)[1..] == a[1..] + b;
      ReadingsWithoutConcat(a[1..], b, id);
    }
  }

  lemma {:induction false} DistinctCardinality(q: seq<string>)
    requires Distinct(q)
    ensures |set k | k in q| == |q|
    decreases |q|
  {
    if q != [] {
      DistinctCardinality(q[1..]);
      assert (set k | k in q) == {q[0]} + (set k | k in q[1..]);
      assert q[0] !in q[1..];
    }
  }

  /** In a valid store the key order has one entry per bin. */
  lemma OrderCoversBins(s: Store)
    requires Valid(s)
    ensures |s.binOrder| == |s.bins|
  {
    DistinctCardinality(s.binOrder);
    assert (set k | k in s.binOrder) == s.bins.Keys;
  }

  // ---------------------------------------------------------------------------
  // Readings and bins
  // ---------------------------------------------------------------------------

  /**
   Append a processed reading to history and upsert its bin: a new bin is
   created from the reading with a count of one; a known bin takes the
   reading's current values and counts one more reading.
   */
  function SaveSensorReading(s: Store, r: ProcessedReading): (t: Store)
    ensures t.readings == s.readings + [r] && t.alerts == s.alerts
    ensures r.binId in t.bins
    ensures var b := t.bins[r.binId];
      && b.currentFillLevel == r.fillLevel && b.currentWeightKg == r.weightKg
      && b.currentTemperature == r.temperature && b.status == r.status && b.lastUpdated == r.timestamp
    ensures r.binId !in s.bins ==>
      && t.bins[r.binId].binId == r.binId && t.bins[r.binId].location == r.location
      && t.bins[r.binId].lastEmptied == None && t.bins[r.binId].totalReadings == 1
      && t.binOrder == s.binOrder + [r.binId]
    ensures r.binId in s.bins ==>
      && t.bins[r.binId].binId == s.bins[r.binId].binId
      && t.bins[r.binId].location == s.bins[r.binId].location
      && t.bins[r.binId].lastEmptied == s.bins[r.binId].lastEmptied
      && t.bins[r.binId].totalReadings == s.bins[r.binId].totalReadings + 1
      && t.binOrder == s.binOrder
    ensures forall k :: k != r.binId ==> (k in t.bins <==> k in s.bins) && (k in s.bins ==> t.bins[k] == s.bins[k])
  {
    var id := r.binId;
    if id !in s.bins then
      var created := Bin(id, r.location, r.fillLevel, r.weightKg, r.temperature, r.status,
                       r.timestamp, None, 1);
      Store(s.bins[id := created], s.binOrder + [id], s.readings + [r], s.alerts)
    else
      var b := s.bins[id];
      var updated := b.(currentFillLevel := r.fillLevel, currentWeightKg := r.weightKg,
                        currentTemperature := r.temperature, status := r.status,
                        lastUpdated := r.timestamp, totalReadings := b.totalReadings + 1);
      Store(s.bins[id := updated], s.binOrder, s.readings + [r], s.alerts)
  }

  lemma SaveSensorReadingPreservesValid(s: Store, r: ProcessedReading)
    requires Valid(s)
    ensures Valid(SaveSensorReading(s, r))
  {
    var t := SaveSensorReading(s, r);
    forall k | k in t.bins
      ensures |ReadingsOf(t.readings, k)| == |ReadingsOf(s.readings, k)| + (if r.binId == k then 1 else 0)
    {
      ReadingsOfAppend(s.readings, r, k);
    }
    if r.binId !in s.bins {
      assert r.binId !in s.binOrder;
    }
  }

  /** A bin's snapshot together with its readings among the most recent ten of all history. */
  datatype BinView = BinView(bin: Bin, recentReadings: seq<ProcessedReading>)

  /** Look a bin up; the recent readings are those of this bin within the global window of the last ten. */
  function GetBinById(s: Store, id: string): (r: Option<BinView>)
    ensures r == None <==> id !in s.bins
    ensures r.Some? ==> r.value.bin == s.bins[id]
    ensures r.Some? ==> |r.value.recentReadings| <= RECENT_WINDOW
    ensures r.Some? ==>
      forall x :: multiset(r.value.recentReadings)[x] ==
        if x.binId == id then multiset(LastN(s.readings, RECENT_WINDOW))[x] else 0
  {
    if id !in s.bins then None
    else Some(BinView(s.bins[id], ReadingsOf(LastN(s.readings, RECENT_WINDOW), id)))
  }

  /**
   The recent readings of a bin are the latest entries of that bin's own
   history, in history order.
   */
  lemma RecentReadingsAreLatestOfBin(s: Store, id: string)
    requires id in s.bins
    ensures var v := GetBinById(s, id).value.recentReadings;
      var h := ReadingsOf(s.readings, id);
      |v| <= |h| && v == h[|h| - |v|..]
  {
    var w := LastN(s.readings, RECENT_WINDOW);
    var older := s.readings[..|s.readings| - |w|];
    ReadingsOfConcat(older, w, id);
    var h := ReadingsOf(s.readings, id);
    var v := GetBinById(s, id).value.recentReadings;
    assert h == ReadingsOf(older, id) + v;
  }

  /** The snapshots of the keys in `order` that name a bin, in that order. */
  function BinsInOrder(bins: map<string, Bin>, order: seq<string>): (r: seq<Bin>)
    ensures forall b :: b in r ==> exists k :: k in order && k in bins && bins[k] == b
    ensures forall k :: k in order && k in bins ==> bins[k] in r
  {
    if order == [] then []
    else (if order[0] in bins then [bins[order[0]]] else []) + BinsInOrder(bins, order[1..])
  }

  /** All bin snapshots, in the order their bins first reported. */
  function GetAllBins(s: Store): (r: seq<Bin>)
    ensures forall b :: b in r ==> exists k :: k in s.bins && s.bins[k] == b
  {
    BinsInOrder(s.bins, s.binOrder)
  }

  /** In a valid store every bin is listed, and the list is as long as there are bins. */
  lemma {:induction false} AllBinsListsEachBin(s: Store)
    requires Valid(s)
    ensures forall k :: k in s.bins ==> s.bins[k] in GetAllBins(s)
    ensures |GetAllBins(s)| == |s.bins|
  {
    BinsInOrderLength(s.bins, s.binOrder);
    OrderCoversBins(s);
  }

  lemma {:induction false} BinsInOrderLength(bins: map<string, Bin>, order: seq<string>)
    requires forall k :: k in order ==> k in bins
    ensures |BinsInOrder(bins, order)| == |order|
  {
    if order != [] {
      BinsInOrderLength(bins, order[1..]);
    }
  }

  // ---------------------------------------------------------------------------
  // Alerts
  // ---------------------------------------------------------------------------

  function SaveAlert(s: Store, a: Alert): (t: Store)
    ensures t.alerts == s.alerts + [a]
    ensures t.bins == s.bins && t.binOrder == s.binOrder && t.readings == s.readings
  {
    s.(alerts := s.alerts + [a])
  }

  lemma SaveAlertPreservesValid(s: Store, a: Alert)
    requires Valid(s)
    ensures Valid(SaveAlert(s, a))
  {
  }

  /** Alerts as listed: only the unresolved ones, or all of them. */
  function GetAlerts(s: Store, activeOnly: bool): (r: seq<Alert>)
    ensures !activeOnly ==> r == s.alerts
    ensures activeOnly ==> |r| == CountUnresolved(s.alerts)
    ensures activeOnly ==> forall x :: multiset(r)[x] == if x.resolved then 0 else multiset(s.alerts)[x]
  {
    if activeOnly then ActiveAlerts(s.alerts) else s.alerts
  }

  /** A saved alert is listed after every alert saved before it. */
  lemma SaveAlertThenList(s: Store, a: Alert)
    ensures GetAlerts(SaveAlert(s, a), true) == GetAlerts(s, true) + (if a.resolved then [] else [a])
    ensures GetAlerts(SaveAlert(s, a), false) == GetAlerts(s, false) + [a]
  {
    ActiveAlertsAppend(s.alerts, [a]);
    assert ActiveAlerts([a]) == (if a.resolved then [] else [a]) + ActiveAlerts([]);
  }

  /** Two alerts agree on everything except their resolution fields. */
  predicate SameExceptResolution(a: Alert, b: Alert) {
    a.(resolved := false, resolvedAt := None) == b.(resolved := false, resolvedAt := None)
  }

  /** Resolve, at time `now`, every unresolved alert of bin `id`. */
  function ResolveAll(alerts: seq<Alert>, id: string, now: string): (r: seq<Alert>)
    ensures |r| == |alerts|
    ensures forall i :: 0 <= i < |r| && r[i].binId == id ==> r[i].resolved
    ensures forall i :: 0 <= i < |r| && (alerts[i].binId != id || alerts[i].resolved) ==> r[i] == alerts[i]
    ensures forall i :: 0 <= i < |r| && alerts[i].binId == id && !alerts[i].resolved ==>
      SameExceptResolution(r[i], alerts[i]) && r[i].resolvedAt == Some(now)
  {
    if alerts == [] then []
    else
      var a := alerts[0];
      var head := if a.binId == id && !a.resolved then a.(resolved := true, resolvedAt := Some(now)) else a;
      [head] + ResolveAll(alerts[1..], id, now)
  }

  function ResolveAlertsForBin(s: Store, id: string, now: string): (t: Store)
    ensures t.bins == s.bins && t.binOrder == s.binOrder && t.readings == s.readings
    ensures |t.alerts| == |s.alerts|
    ensures forall i :: 0 <= i < |t.alerts| && t.alerts[i].binId == id ==> t.alerts[i].resolved
    ensures forall i :: 0 <= i < |t.alerts| && (s.alerts[i].binId != id || s.alerts[i].resolved) ==>
      t.alerts[i] == s.alerts[i]
    ensures forall i :: 0 <= i < |t.alerts| && s.alerts[i].binId == id && !s.alerts[i].resolved ==>
      SameExceptResolution(t.alerts[i], s.alerts[i]) && t.alerts[i].resolvedAt == Some(now)
  {
    s.(alerts := ResolveAll(s.alerts, id, now))
  }

  lemma ResolveAlertsForBinPreservesValid(s: Store, id: string, now: string)
    requires Valid(s)
    ensures Valid(ResolveAlertsForBin(s, id, now))
  {
  }

  /** Resolving twice is resolving once, whatever the second clock reading. */
  lemma ResolveIdempotent(s: Store, id: string, now1: string, now2: string)
    ensures ResolveAlertsForBin(ResolveAlertsForBin(s, id, now1), id, now2) == ResolveAlertsForBin(s, id, now1)
  {
    var t := ResolveAlertsForBin(s, id, now1);
    var u := ResolveAlertsForBin(t, id, now2);
    assert u.alerts == t.alerts;
  }

  /** After resolution no active alert of the bin remains. */
  lemma ResolveClearsActive(s: Store, id: string, now: string)
    ensures forall x :: x in GetAlerts(ResolveAlertsForBin(s, id, now), true) ==> x.binId != id
  {
    var t := ResolveAlertsForBin(s, id, now);
    forall x | x in GetAlerts(t, true)
      ensures x.binId != id
    {
      assert multiset(GetAlerts(t, true))[x] > 0;
      assert x in t.alerts;
    }
  }

  // ---------------------------------------------------------------------------
  // Emptying and deletion
  // ---------------------------------------------------------------------------

  /** The synthetic history entry recording that bin `b` was emptied at `now`. */
  function EmptiedReading(b: Bin, id: string, now: string): (p: ProcessedReading)
    ensures p.binId == id && p.timestamp == now && p.location == b.location
    ensures p.fillLevel == 0.0 && p.weightKg == 0.0 && p.temperature == b.currentTemperature
    ensures !NeedsCollection(p.status) && !p.needsAttention && !p.temperatureAlert
  {
    ProcessedReading(id, now, 0.0, b.currentTemperature, 0.0, b.location, Normal, false, false)
  }

  /**
   Empty a known bin at time `now`: its fill and weight drop to zero, its
   status returns to normal, and a zero-fill, zero-weight reading is
   appended to history. An unknown id leaves the store as it is.
   */
  function MarkBinEmptied(s: Store, id: string, now: string): (t: Store)
    ensures id !in s.bins ==> t == s
    ensures id in s.bins ==>
      var b0 := s.bins[id];
      && id in t.bins
      && var b := t.bins[id];
      && b.currentFillLevel == 0.0 && b.currentWeightKg == 0.0 && b.status == Normal
      && b.lastEmptied == Some(now) && b.lastUpdated == now
      && b.binId == b0.binId && b.location == b0.location
      && b.currentTemperature == b0.currentTemperature && b.totalReadings == b0.totalReadings
    ensures id in s.bins ==>
      && t.readings == s.readings + [EmptiedReading(s.bins[id], id, now)]
      && var e := t.readings[|s.readings|];
      && e.binId == id && e.timestamp == now && e.fillLevel == 0.0 && e.weightKg == 0.0
      && e.status == Normal && !e.needsAttention && !e.temperatureAlert
      && e.temperature == s.bins[id].currentTemperature && e.location == s.bins[id].location
    ensures t.alerts == s.alerts && t.binOrder == s.binOrder
    ensures forall k :: k != id ==> (k in t.bins <==> k in s.bins) && (k in s.bins ==> t.bins[k] == s.bins[k])
  {
    if id !in s.bins then s
    else
      var b := s.bins[id];
      var emptied := b.(currentFillLevel := 0.0, currentWeightKg := 0.0, status := Normal,
                        lastEmptied := Some(now), lastUpdated := now);
      Store(s.bins[id := emptied], s.binOrder, s.readings + [EmptiedReading(b, id, now)], s.alerts)
  }

  lemma MarkBinEmptiedPreservesValid(s: Store, id: string, now: string)
    requires Valid(s)
    ensures Valid(MarkBinEmptied(s, id, now))
  {
    if id in s.bins {
      var t := MarkBinEmptied(s, id, now);
      forall k | k in t.bins
        ensures |ReadingsOf(t.readings, k)| >= |ReadingsOf(s.readings, k)|
      {
        ReadingsOfAppend(s.readings, EmptiedReading(s.bins[id], id, now), k);
      }
    }
  }

  /**
   Delete a bin: drop its snapshot, purge its history entries and resolve
   its alerts at time `now`. Reports whether the bin was known; an unknown id
   changes nothing.
   */
  function DeleteBin(s: Store, id: string, now: string): (r: (Store, bool))
    ensures r.1 <==> id in s.bins
    ensures !r.1 ==> r.0 == s
    ensures r.1 ==>
      var t := r.0;
      && id !in t.bins
      && (forall k :: k != id ==> (k in t.bins <==> k in s.bins) && (k in t.bins ==> t.bins[k] == s.bins[k]))
      && t.binOrder == RemoveKey(s.binOrder, id)
      && t.readings == ReadingsWithout(s.readings, id)
      && (forall i :: 0 <= i < |t.readings| ==> t.readings[i].binId != id)
      && (forall x: ProcessedReading :: x.binId != id ==> multiset(t.readings)[x] == multiset(s.readings)[x])
      && |t.alerts| == |s.alerts|
      && (forall i :: 0 <= i < |t.alerts| && t.alerts[i].binId == id ==> t.alerts[i].resolved)
      && (forall i :: 0 <= i < |t.alerts| && (s.alerts[i].binId != id || s.alerts[i].resolved) ==>
            t.alerts[i] == s.alerts[i])
      && (forall i :: 0 <= i < |t.alerts| && s.alerts[i].binId == id && !s.alerts[i].resolved ==>
            SameExceptResolution(t.alerts[i], s.alerts[i]) && t.alerts[i].resolvedAt == Some(now))
  {
    if id in s.bins then
      var t := Store(s.bins - {id}, RemoveKey(s.binOrder, id), ReadingsWithout(s.readings, id), s.alerts);
      var t' := ResolveAlertsForBin(t, id, now);
      assert forall i :: 0 <= i < |t'.readings| ==> t'.readings[i].binId != id by {
        forall i | 0 <= i < |t'.readings|
          ensures t'.readings[i].binId != id
        {
          assert multiset(t'.readings)[t'.readings[i]] > 0;
        }
      }
      (t', true)
    else (s, false)
  }

  lemma DeleteBinPreservesValid(s: Store, id: string, now: string)
    requires Valid(s)
    ensures Valid(DeleteBin(s, id, now).0)
  {
    if id in s.bins {
      var t := DeleteBin(s, id, now).0;
      forall k | k in t.bins
        ensures ReadingsOf(t.readings, k) == ReadingsOf(s.readings, k)
      {
        ReadingsOfWithout(s.readings, id, k);
      }
      forall i | 0 <= i < |t.readings|
        ensures t.readings[i].binId in t.bins
      {
        var x := t.readings[i];
        assert multiset(t.readings)[x] > 0;
        assert x in s.readings;
      }
    }
  }

  /** A deleted bin is no longer found. */
  lemma DeleteThenGet(s: Store, id: string, now: string)
    ensures GetBinById(DeleteBin(s, id, now).0, id) == None
  {
  }

  // ---------------------------------------------------------------------------
  // Statistics
  // ---------------------------------------------------------------------------

  datatype Statistics = Statistics(
    totalBins: nat,
    activeAlerts: nat,
    binsNeedingCollection: nat,
    averageFillLevel: real,
    totalWasteCollectedKg: real,
    totalReadings: nat,
    totalAlertsGenerated: nat,
    lastUpdated: string)

  /** Sum of current fill levels over the keys in `order`. */
  function SumFill(bins: map<string, Bin>, order: seq<string>): (r: real)
    ensures order == [] ==> r == 0.0
    ensures (forall k :: k in bins ==> 0.0 <= bins[k].currentFillLevel) ==> 0.0 <= r
  {
    if order == [] then 0.0
    else (if order[0] in bins then bins[order[0]].currentFillLevel else 0.0) + SumFill(bins, order[1..])
  }

  /** Number of keys in `order` whose bin is critical or full. */
  function CountNeeding(bins: map<string, Bin>, order: seq<string>): (r: nat)
    ensures r <= |order|
    ensures (forall k :: k in bins ==> !NeedsCollection(bins[k].status)) ==> r == 0
  {
    if order == [] then 0
    else (if order[0] in bins && NeedsCollection(bins[order[0]].status) then 1 else 0) + CountNeeding(bins, order[1..])
  }

  /** Total weight of the history entries that report an empty bin. */
  function WasteCollected(rs: seq<ProcessedReading>): (r: real)
    ensures (forall i :: 0 <= i < |rs| ==> rs[i].weightKg >= 0.0) ==> r >= 0.0
    ensures (forall i :: 0 <= i < |rs| ==> rs[i].fillLevel != 0.0) ==> r == 0.0
  {
    if rs == [] then 0.0
    else (if rs[0].fillLevel == 0.0 then rs[0].weightKg else 0.0) + WasteCollected(rs[1..])
  }

  /** Aggregate figures over the store; `now` is the clock reading reported as last updated. */
  function GetStatistics(s: Store, now: string): (st: Statistics)
    ensures st.totalBins == |s.bins|
    ensures st.activeAlerts == |GetAlerts(s, true)|
    ensures st.totalReadings == |s.readings| && st.totalAlertsGenerated == |s.alerts|
    ensures st.lastUpdated == now
    ensures |s.bins| == 0 ==> st.averageFillLevel == 0.0
    ensures |s.bins| > 0 ==> st.averageFillLevel * (|s.bins| as real) == SumFill(s.bins, s.binOrder)
    ensures st.totalWasteCollectedKg == WasteCollected(s.readings)
    ensures (forall i :: 0 <= i < |s.readings| ==> s.readings[i].weightKg >= 0.0) ==> st.totalWasteCollectedKg >= 0.0
  {
    var total := |s.bins|;
    var average := if total > 0 then SumFill(s.bins, s.binOrder) / (total as real) else 0.0;
    Statistics(total, CountUnresolved(s.alerts), CountNeeding(s.bins, s.binOrder),
               average, WasteCollected(s.readings), |s.readings|, |s.alerts|, now)
  }

  /** A new history entry adds its weight to the waste total exactly when it reports zero fill. */
  lemma {:induction false} WasteAppend(rs: seq<ProcessedReading>, x: ProcessedReading)
    ensures WasteCollected(rs + [x]) == WasteCollected(rs) + (if x.fillLevel == 0.0 then x.weightKg else 0.0)
    decreases |rs|
  {
    if rs == [] {
      assert WasteCollected([x]) == (if x.fillLevel == 0.0 then x.weightKg else 0.0) + WasteCollected([]);
    } else {
      assert (rs + [x])[1..] == rs[1..] + [x];
      WasteAppend(rs[1..], x);
    }
  }

  /** The waste total splits into one bin's share and the share of all other bins. */
  lemma {:induction false} WasteSplit(rs: seq<ProcessedReading>, id: string)
    ensures WasteCollected(rs) == WasteCollected(ReadingsOf(rs, id)) + WasteCollected(ReadingsWithout(rs, id))
    decreases |rs|
  {
    if rs != [] {
      WasteSplit(rs[1..], id);
      var x := rs[0];
      var own := ReadingsOf(rs[1..], id);
      var others := ReadingsWithout(rs[1..], id);
      if x.binId == id {
        assert ReadingsOf(rs, id) == [x] + own;
        assert ([x] + own)[0] == x && ([x] + own)[1..] == own;
        assert ReadingsWithout(rs, id) == others;
      } else {
        assert ReadingsWithout(rs, id) == [x] + others;
        assert ([x] + others)[0] == x && ([x] + others)[1..] == others;
        assert ReadingsOf(rs, id) == own;
      }
    }
  }

  /** Deleting a bin takes its own zero-fill weights out of the waste total. */
  lemma DeleteBinWaste(s: Store, id: string, now: string, clock: string)
    requires id in s.bins
    ensures GetStatistics(DeleteBin(s, id, now).0, clock).totalWasteCollectedKg
         == GetStatistics(s, clock).totalWasteCollectedKg - WasteCollected(ReadingsOf(s.readings, id))
  {
    WasteSplit(s.readings, id);
  }

  /** Emptying a bin never adds to the waste collected, since the synthetic reading weighs nothing. */
  lemma EmptyingAddsNoWaste(s: Store, id: string, now: string, clock: string)
    ensures GetStatistics(MarkBinEmptied(s, id, now), clock).totalWasteCollectedKg
         == GetStatistics(s, clock).totalWasteCollectedKg
  {
    if id in s.bins {
      WasteAppend(s.readings, EmptiedReading(s.bins[id], id, now));
    }
  }

  /** `CountNeeding` over distinct keys counts the set of keys whose bin needs collection. */
  lemma {:induction false} CountNeedingIsSetSize(bins: map<string, Bin>, order: seq<string>)
    requires Distinct(order)
    ensures CountNeeding(bins, order) == |set k | k in order && k in bins && NeedsCollection(bins[k].status)|
    decreases |order|
  {
    var needing := set k | k in order && k in bins && NeedsCollection(bins[k].status);
    if order != [] {
      var tail := order[1..];
      CountNeedingIsSetSize(bins, tail);
      var tailNeeding := set k | k in tail && k in bins && NeedsCollection(bins[k].status);
      assert order[0] !in tail;
      if order[0] in bins && NeedsCollection(bins[order[0]].status) {
        assert needing == {order[0]} + tailNeeding;
      } else {
        assert needing == tailNeeding;
      }
    }
  }

  /** In a valid store the collection count is the number of critical or full bins, at most the number of bins. */
  lemma StatisticsCountsBinsNeedingCollection(s: Store, now: string)
    requires Valid(s)
    ensures GetStatistics(s, now).binsNeedingCollection
         == |set k | k in s.bins && NeedsCollection(s.bins[k].status)|
    ensures GetStatistics(s, now).binsNeedingCollection <= GetStatistics(s, now).totalBins
  {
    CountNeedingIsSetSize(s.bins, s.binOrder);
    var needing := set k | k in s.bins && NeedsCollection(s.bins[k].status);
    assert needing == set k | k in s.binOrder && k in s.bins && NeedsCollection(s.bins[k].status);
    OrderCoversBins(s);
  }

  /** Changing a bin whose key is not in `order` leaves the sum over `order` alone. */
  lemma {:induction false} SumFillOutside(bins: map<string, Bin>, order: seq<string>, k: string, b: Bin)
    requires k !in order
    ensures SumFill(bins[k := b], order) == SumFill(bins, order)
    decreases |order|
  {
    if order != [] {
      SumFillOutside(bins, order[1..], k, b);
    }
  }

  /** Replacing the snapshot of a listed key replaces its fill in the sum. */
  lemma {:induction false} SumFillUpdate(bins: map<string, Bin>, order: seq<string>, k: string, b: Bin)
    requires Distinct(order) && k in order && k in bins
    ensures SumFill(bins[k := b], order) == SumFill(bins, order) - bins[k].currentFillLevel + b.currentFillLevel
    decreases |order|
  {
    assert Distinct(order[1..]);
    if order[0] == k {
      assert k !in order[1..];
      SumFillOutside(bins, order[1..], k, b);
    } else {
      assert k in order[1..];
      SumFillUpdate(bins, order[1..], k, b);
    }
  }

  /** Listing one more key adds its fill to the sum. */
  lemma {:induction false} SumFillAppend(bins: map<string, Bin>, order: seq<string>, k: string)
    ensures SumFill(bins, order + [k]) == SumFill(bins, order) + (if k in bins then bins[k].currentFillLevel else 0.0)
    decreases |order|
  {
    if order == [] {
      assert SumFill(bins, [k]) == (if k in bins then bins[k].currentFillLevel else 0.0) + SumFill(bins, []);
    } else {
      assert (order + [k])[0] == order[0];
      assert (order + [k])[1..] == order[1..] + [k];
      SumFillAppend(bins, order[1..], k);
    }
  }

  /**
   Saving a reading moves the fill total from the bin's old fill to the
   reading's fill; a new bin adds the reading's fill.
   */
  lemma SaveSensorReadingSumFill(s: Store, r: ProcessedReading)
    requires Valid(s)
    ensures var t := SaveSensorReading(s, r);
      SumFill(t.bins, t.binOrder)
        == SumFill(s.bins, s.binOrder) + r.fillLevel
           - (if r.binId in s.bins then s.bins[r.binId].currentFillLevel else 0.0)
  {
    var t := SaveSensorReading(s, r);
    var id := r.binId;
    if id in s.bins {
      SumFillUpdate(s.bins, s.binOrder, id, t.bins[id]);
    } else {
      assert id !in s.binOrder;
      SumFillOutside(s.bins, s.binOrder, id, t.bins[id]);
      SumFillAppend(t.bins, s.binOrder, id);
    }
  }

  /** Emptying a known bin takes its fill out of the fill total. */
  lemma MarkBinEmptiedSumFill(s: Store, id: string, now: string)
    requires Valid(s) && id in s.bins
    ensures var t := MarkBinEmptied(s, id, now);
      SumFill(t.bins, t.binOrder) == SumFill(s.bins, s.binOrder) - s.bins[id].currentFillLevel
  {
    var t := MarkBinEmptied(s, id, now);
    SumFillUpdate(s.bins, s.binOrder, id, t.bins[id]);
  }

  lemma {:induction false} SumFillBounded(bins: map<string, Bin>, order: seq<string>)
    requires forall k :: k in bins ==> 0.0 <= bins[k].currentFillLevel <= 100.0
    ensures 0.0 <= SumFill(bins, order) <= 100.0 * (|order| as real)
    decreases |order|
  {
    if order != [] {
      SumFillBounded(bins, order[1..]);
    }
  }

  lemma DivideBounded(total: real, n: real)
    requires n > 0.0 && 0.0 <= total <= 100.0 * n
    ensures 0.0 <= total / n <= 100.0
  {
    assert total / n * n == total;
  }

  /** With every bin's fill a percentage, so is the average. */
  lemma StatisticsAverageIsPercentage(s: Store, now: string)
    requires Valid(s)
    requires forall k :: k in s.bins ==> 0.0 <= s.bins[k].currentFillLevel <= 100.0
    ensures 0.0 <= GetStatistics(s, now).averageFillLevel <= 100.0
  {
    if |s.bins| > 0 {
      OrderCoversBins(s);
      SumFillBounded(s.bins, s.binOrder);
      var n := |s.bins| as real;
      var total := SumFill(s.bins, s.binOrder);
      assert 0.0 <= total <= 100.0 * n;
      DivideBounded(total, n);
    }
  }
}

=== FILE: models.dfy ===
/**
 Records and enumerations shared by the classifier, the alert engine and the
 in-memory store: the status and severity enums of app/models.py, the inbound
 sensor reading, the classified reading kept in history, the per-bin snapshot
 and the alert record.
 */
module Models {

  /** The conventional Some/None wrapper for nullable fields and lookups. */
  datatype Option<+T> = None | Some(value: T)

  /** Fill-urgency classification of a bin. */
  datatype BinStatus = Normal | Warning | Critical | Full

  /** Severity of an alert. */
  datatype AlertLevel = Low | Medium | High | Critical

  /** One telemetry sample as received from a device. */
  datatype SensorData = SensorData(
    binId: string,
    timestamp: string,
    fillLevel: real,
    temperature: real,
    weightKg: real,
    location: string)

  /** The bounds the request schema enforces before a reading reaches the core. */
  predicate WellFormed(d: SensorData) {
    0.0 <= d.fillLevel <= 100.0 && d.weightKg >= 0.0
  }

  /** A reading together with the fields the classifier derives from it; this is what history stores. */
  datatype ProcessedReading = ProcessedReading(
    binId: string,
    timestamp: string,
    fillLevel: real,
    temperature: real,
    weightKg: real,
    location: string,
    status: BinStatus,
    needsAttention: bool,
    temperatureAlert: bool)

  /** The current snapshot of one bin. */
  datatype Bin = Bin(
    binId: string,
    location: string,
    currentFillLevel: real,
    currentWeightKg: real,
    currentTemperature: real,
    status: BinStatus,
    lastUpdated: string,
    lastEmptied: Option<string>,
    totalReadings: nat)

  /** A raised alert and its resolution state. */
  datatype Alert = Alert(
    alertId: string,
    binId: string,
    alertType: string,
    level: AlertLevel,
    message: string,
    location: string,
    timestamp: string,
    resolved: bool,
    resolvedAt: Option<string>)

  /** Status values that call for a collection run. */
  predicate NeedsCollection(s: BinStatus) {
    s == BinStatus.Critical || s == Full
  }

  /** Number of alerts not yet resolved. */
  function CountUnresolved(alerts: seq<Alert>): (r: nat)
    ensures r <= |alerts|
  {
    if alerts == [] then 0
    else (if alerts[0].resolved then 0 else 1) + CountUnresolved(alerts[1..])
  }

  /** The count is zero exactly when every alert is resolved. */
  lemma {:induction false} NoneUnresolved(alerts: seq<Alert>)
    ensures CountUnresolved(alerts) == 0 <==> forall i :: 0 <= i < |alerts| ==> alerts[i].resolved
  {
    if alerts != [] {
      NoneUnresolved(alerts[1..]);
      assert forall i :: 0 < i < |alerts| ==> alerts[i] == alerts[1..][i - 1];
    }
  }
}

=== FILE: sensor_handler.dfy ===
/**
 The reading classifier: fill-level bands, the temperature safe range, the
 attention rule, payload validation, the time-to-full estimate and the
 collection priority score.
 */
module SensorHandler {
  import opened Models
  import Strings

  /** Inclusive lower bounds of the full, critical and warning bands. */
  const FULL_AT: real := 95.0
  const CRITICAL_AT: real := 80.0
  const WARNING_AT: real := 60.0

  /** Medical waste is to be kept between these temperatures; both ends are safe. */
  const TEMP_MIN: real := 15.0
  const TEMP_MAX: real := 30.0

  /** Position of a status in the order normal < warning < critical < full. */
  function StatusRank(s: BinStatus): nat {
    match s
    case Normal => 0
    case Warning => 1
    case Critical => 2
    case Full => 3
  }

  /** Band a fill percentage falls in; each boundary belongs to the higher band. */
  function DetermineBinStatus(fillLevel: real): (r: BinStatus)
    ensures r == Full <==> fillLevel >= 95.0
    ensures r == BinStatus.Critical <==> 80.0 <= fillLevel < 95.0
    ensures r == Warning <==> 60.0 <= fillLevel < 80.0
    ensures r == Normal <==> fillLevel < 60.0
  {
    if fillLevel >= FULL_AT then Full
    else if fillLevel >= CRITICAL_AT then BinStatus.Critical
    else if fillLevel >= WARNING_AT then Warning
    else Normal
  }

  /** A fuller bin is never classified as less urgent. */
  lemma StatusMonotone(f1: real, f2: real)
    requires f1 <= f2
    ensures StatusRank(DetermineBinStatus(f1)) <= StatusRank(DetermineBinStatus(f2))
  {
  }

  /** The boundary values pinned by the unit tests. */
  lemma StatusBoundaries()
    ensures DetermineBinStatus(59.9) == Normal && DetermineBinStatus(60.0) == Warning
    ensures DetermineBinStatus(79.9) == Warning && DetermineBinStatus(80.0) == BinStatus.Critical
    ensures DetermineBinStatus(94.9) == BinStatus.Critical && DetermineBinStatus(95.0) == Full
    ensures DetermineBinStatus(30.0) == Normal && DetermineBinStatus(70.0) == Warning
    ensures DetermineBinStatus(90.0) == BinStatus.Critical && DetermineBinStatus(99.0) == Full
    ensures DetermineBinStatus(100.0) == Full && DetermineBinStatus(0.0) == Normal
  {
  }

  /** True when the temperature lies outside the safe range. */
  function CheckTemperatureAlert(temperature: real): (r: bool)
    ensures !r <==> 15.0 <= temperature <= 30.0
  {
    temperature < TEMP_MIN || temperature > TEMP_MAX
  }

  /** A bin needs attention when it is critical or full, or too cold or too warm. */
  predicate NeedsAttention(status: BinStatus, temperatureAlert: bool)
    ensures NeedsAttention(status, temperatureAlert)
        <==> status == BinStatus.Critical || status == Full || temperatureAlert
    ensures status == Normal || status == Warning ==> (NeedsAttention(status, temperatureAlert) <==> temperatureAlert)
  {
    NeedsCollection(status) || temperatureAlert
  }

  /** Classify a reading, carrying its own fields through unchanged. */
  function ProcessSensorData(d: SensorData): (p: ProcessedReading)
    ensures p.binId == d.binId && p.timestamp == d.timestamp && p.location == d.location
    ensures p.fillLevel == d.fillLevel && p.temperature == d.temperature && p.weightKg == d.weightKg
    ensures p.status == DetermineBinStatus(d.fillLevel)
    ensures p.temperatureAlert <==> d.temperature < 15.0 || d.temperature > 30.0
    ensures p.needsAttention <==> d.fillLevel >= 80.0 || d.temperature < 15.0 || d.temperature > 30.0
  {
    var status := DetermineBinStatus(d.fillLevel);
    var temperatureAlert := CheckTemperatureAlert(d.temperature);
    ProcessedReading(d.binId, d.timestamp, d.fillLevel, d.temperature, d.weightKg, d.location,
                     status, NeedsAttention(status, temperatureAlert), temperatureAlert)
  }

  /** The raw reading underlying a classified one. */
  function Raw(p: ProcessedReading): SensorData {
    SensorData(p.binId, p.timestamp, p.fillLevel, p.temperature, p.weightKg, p.location)
  }

  /** A processed reading is one the classifier could have produced. */
  predicate Classified(p: ProcessedReading) {
    p == ProcessSensorData(Raw(p))
  }

  /** Classification loses nothing: the raw reading is recovered, and the result is self-consistent. */
  lemma ProcessRoundTrip(d: SensorData)
    ensures Raw(ProcessSensorData(d)) == d
    ensures Classified(ProcessSensorData(d))
  {
  }

  /** The status summary of one bin. */
  datatype StatusReport = StatusReport(
    binId: string,
    status: BinStatus,
    fillLevel: real,
    requiresCollection: bool)

  /** Report a bin's status; collection is required exactly from 80 percent upward. */
  function CheckBinStatus(binId: string, fillLevel: real): (r: StatusReport)
    ensures r.binId == binId && r.fillLevel == fillLevel
    ensures r.status == DetermineBinStatus(fillLevel)
    ensures r.requiresCollection <==> fillLevel >= 80.0
  {
    var status := DetermineBinStatus(fillLevel);
    StatusReport(binId, status, fillLevel, NeedsCollection(status))
  }

  /** A field value of an untyped payload. */
  datatype Value = Num(x: real) | Text(s: string)

  /** Outcome of payload validation; `validate_sensor_data` raises a `TypeError` when it compares a text field with a number. */
  datatype Verdict = Accepted | Rejected | RaisesTypeError

  const REQUIRED_FIELDS: seq<string> := ["bin_id", "fill_level", "temperature", "weight_kg", "location"]

  /** Every one of `fields` is a key of `data`, checked in order as `validate_sensor_data`'s field loop does. */
  function AllPresent(data: map<string, Value>, fields: seq<string>): (r: bool)
    ensures r <==> forall i :: 0 <= i < |fields| ==> fields[i] in data
  {
    if fields == [] then true
    else if fields[0] !in data then false
    else AllPresent(data, fields[1..])
  }

  /**
   Validate a payload: every required field present, fill in [0, 100],
   weight non-negative. The fill is examined before the weight, so a text
   weight goes unnoticed once the fill is already out of range.
   */
  function ValidateSensorData(data: map<string, Value>): (r: Verdict)
    ensures (exists f :: f in REQUIRED_FIELDS && f !in data) ==> r == Rejected
    ensures r == Accepted <==>
      && (forall f :: f in REQUIRED_FIELDS ==> f in data)
      && data["fill_level"].Num? && 0.0 <= data["fill_level"].x <= 100.0
      && data["weight_kg"].Num? && data["weight_kg"].x >= 0.0
    ensures r == RaisesTypeError <==>
      && (forall f :: f in REQUIRED_FIELDS ==> f in data)
      && (|| data["fill_level"].Text?
          || (0.0 <= data["fill_level"].x <= 100.0 && data["weight_kg"].Text?))
  {
    assert REQUIRED_FIELDS[1] == "fill_level" && REQUIRED_FIELDS[3] == "weight_kg";
    if !AllPresent(data, REQUIRED_FIELDS) then Rejected
    else
      match data["fill_level"]
      case Text(_) => RaisesTypeError
      case Num(fill) =>
        if !(0.0 <= fill <= 100.0) then Rejected
        else
          match data["weight_kg"]
          case Text(_) => RaisesTypeError
          case Num(weight) => if weight < 0.0 then Rejected else Accepted
  }

  /** The payload a device would send for a reading. */
  function ToPayload(d: SensorData): map<string, Value> {
    map["bin_id" := Text(d.binId), "fill_level" := Num(d.fillLevel),
        "temperature" := Num(d.temperature), "weight_kg" := Num(d.weightKg),
        "location" := Text(d.location)]
  }

  /** Validation accepts a reading's payload exactly when the reading meets the request schema's bounds. */
  lemma ValidateAgreesWithSchema(d: SensorData)
    ensures ValidateSensorData(ToPayload(d)) == Accepted <==> WellFormed(d)
    ensures ValidateSensorData(ToPayload(d)) != RaisesTypeError
  {
    var data := ToPayload(d);
    assert forall f :: f in REQUIRED_FIELDS ==> f in data;
  }

  /** Hours until full; `Infinite` stands for the `float('inf')` that `calculate_time_to_full` returns. */
  datatype Hours = Infinite | Finite(hours: real)

  /** Linear estimate of the hours until the bin reaches 100 percent. */
  function CalculateTimeToFull(currentFillLevel: real, fillRatePerHour: real): (r: Hours)
    ensures r.Infinite? <==> fillRatePerHour <= 0.0
    ensures r.Finite? ==> currentFillLevel + fillRatePerHour * r.hours == 100.0
  {
    if fillRatePerHour <= 0.0 then Infinite
    else Finite((100.0 - currentFillLevel) / fillRatePerHour)
  }

  /** The worked values of the unit tests. */
  lemma TimeToFullExamples()
    ensures CalculateTimeToFull(50.0, 10.0) == Finite(5.0)
    ensures CalculateTimeToFull(80.0, 2.0) == Finite(10.0)
    ensures CalculateTimeToFull(50.0, 0.0) == Infinite
    ensures CalculateTimeToFull(50.0, -1.0) == Infinite
  {
  }

  /** Location names whose bins are collected with priority. */
  const CRITICAL_LOCATIONS: seq<string> := ["ICU", "ER", "OR", "Surgery"]

  /** Some critical location name occurs (case-sensitively) in `location`. */
  predicate IsCriticalLocation(location: string)
    ensures IsCriticalLocation(location)
        <==> || Strings.Contains(location, "ICU") || Strings.Contains(location, "ER")
             || Strings.Contains(location, "OR") || Strings.Contains(location, "Surgery")
    ensures IsCriticalLocation(location) ==> |location| >= 2
  {
    exists c :: c in CRITICAL_LOCATIONS && Strings.Contains(location, c)
  }

  /** Collection score of each status band. */
  function StatusScore(s: BinStatus): int {
    match s
    case Normal => 2
    case Warning => 5
    case Critical => 8
    case Full => 10
  }

  function Min(a: int, b: int): int {
    if a <= b then a else b
  }

  /** Collection priority: the band score, raised by 2 (capped at 10) at a critical location. */
  function GetCollectionPriority(fillLevel: real, location: string): (r: int)
    ensures 2 <= r <= 10
    ensures fillLevel >= 95.0 ==> r == 10
    ensures r == if IsCriticalLocation(location)
                 then Min(10, StatusScore(DetermineBinStatus(fillLevel)) + 2)
                 else StatusScore(DetermineBinStatus(fillLevel))
  {
    var base :=
      if fillLevel >= FULL_AT then 10
      else if fillLevel >= CRITICAL_AT then 8
      else if fillLevel >= WARNING_AT then 5
      else 2;
    if IsCriticalLocation(location) then Min(10, base + 2) else base
  }

  /** For a fixed location the priority never drops as the bin fills. */
  lemma PriorityMonotone(f1: real, f2: real, location: string)
    requires f1 <= f2
    ensures GetCollectionPriority(f1, location) <= GetCollectionPriority(f2, location)
  {
  }

  /** A critical location adds exactly the capped bonus over an ordinary one. */
  lemma PriorityLocationBonus(fillLevel: real, critical: string, ordinary: string)
    requires IsCriticalLocation(critical) && !IsCriticalLocation(ordinary)
    ensures GetCollectionPriority(fillLevel, critical) == Min(10, GetCollectionPriority(fillLevel, ordinary) + 2)
    ensures GetCollectionPriority(fillLevel, critical) > GetCollectionPriority(fillLevel, ordinary) <==> fillLevel < 95.0
  {
  }

  /** The cases of the unit tests; the lower-case "er" in "GeneralWard" does not count. */
  lemma PriorityExamples()
    ensures GetCollectionPriority(30.0, "GeneralWard") == 2
    ensures GetCollectionPriority(70.0, "GeneralWard") == 5
    ensures GetCollectionPriority(85.0, "GeneralWard") == 8
    ensures GetCollectionPriority(70.0, "ICU-Floor3") == 7
    ensures GetCollectionPriority(98.0, "GeneralWard") == 10
  {
    assert Strings.Contains("ICU-Floor3", "ICU");
    assert "ICU-Floor3" in ["ICU-Floor3"];
    NotCriticalWithoutInitials("GeneralWard");
  }

  /** A location without any of the letters I, E, O, S in upper case is not critical. */
  lemma NotCriticalWithoutInitials(location: string)
    requires forall k :: 0 <= k < |location| ==> location[k] !in "IEOS"
    ensures !IsCriticalLocation(location)
  {
    Strings.ContainsNeedsFirstChar(location, "ICU");
    Strings.ContainsNeedsFirstChar(location, "ER");
    Strings.ContainsNeedsFirstChar(location, "OR");
    Strings.ContainsNeedsFirstChar(location, "Surgery");
  }

}

=== FILE: service.dfy ===
/**
 The call sequences of the two writing endpoints, over the store: ingesting a
 reading (classify, save the reading, decide on an alert, save the alert) and
 emptying a bin (check it exists, mark it emptied, resolve its alerts).
 */
module Service {
  import opened Models
  import SensorHandler
  import AlertGenerator
  import Database

  datatype IngestResult = IngestResult(
    store: Database.Store,
    processed: ProcessedReading,
    alert: Option<Alert>)

  /** Ingest one reading; `clock` and `fmt1` are what the alert engine consumes. */
  function Ingest(s: Database.Store, d: SensorData, clock: AlertGenerator.AlertClock,
                  fmt1: real -> string): (r: IngestResult)
    ensures r.processed == SensorHandler.ProcessSensorData(d)
    ensures r.store.readings == s.readings + [r.processed]
    ensures r.alert.Some? <==> d.fillLevel >= 80.0 || d.temperature < 15.0 || d.temperature > 30.0
    ensures r.store.alerts == s.alerts + (if r.alert.Some? then [r.alert.value] else [])
    ensures r.alert.Some? ==> r.alert.value.binId == d.binId && !r.alert.value.resolved
    ensures r.alert == AlertGenerator.GenerateAlertIfNeeded(r.processed, clock, fmt1)
    ensures r.alert.Some? ==> r.alert.value.level == AlertGenerator.LevelForStatus(r.processed.status)
    ensures d.binId in r.store.bins
    ensures r.store.bins[d.binId].currentFillLevel == d.fillLevel
    ensures r.store.bins[d.binId].status == SensorHandler.DetermineBinStatus(d.fillLevel)
    ensures r.store.bins[d.binId].totalReadings
         == (if d.binId in s.bins then s.bins[d.binId].totalReadings + 1 else 1)
    ensures r.store.binOrder == (if d.binId in s.bins then s.binOrder else s.binOrder + [d.binId])
    ensures forall k :: k != d.binId ==>
      (k in r.store.bins <==> k in s.bins) && (k in s.bins ==> r.store.bins[k] == s.bins[k])
  {
    var processed := SensorHandler.ProcessSensorData(d);
    var saved := Database.SaveSensorReading(s, processed);
    var alert := AlertGenerator.GenerateAlertIfNeeded(processed, clock, fmt1);
    AlertGenerator.ClassifiedAlertIffAttention(d, clock, fmt1);
    var store := if alert.Some? then Database.SaveAlert(saved, alert.value) else saved;
    IngestResult(store, processed, alert)
  }

  lemma IngestPreservesValid(s: Database.Store, d: SensorData, clock: AlertGenerator.AlertClock,
                             fmt1: real -> string)
    requires Database.Valid(s)
    ensures Database.Valid(Ingest(s, d, clock, fmt1).store)
  {
    Database.SaveSensorReadingPreservesValid(s, SensorHandler.ProcessSensorData(d));
  }

  /** The reading just ingested shows up among its bin's recent readings. */
  lemma IngestThenGet(s: Database.Store, d: SensorData, clock: AlertGenerator.AlertClock,
                      fmt1: real -> string)
    ensures var r := Ingest(s, d, clock, fmt1);
      var view := Database.GetBinById(r.store, d.binId);
      && view.Some? && view.value.bin.currentFillLevel == d.fillLevel
      && r.processed in view.value.recentReadings
  {
    var r := Ingest(s, d, clock, fmt1);
    var w := Database.LastN(r.store.readings, Database.RECENT_WINDOW);
    assert w[|w| - 1] == r.processed;
    assert multiset(w)[r.processed] > 0;
    var view := Database.GetBinById(r.store, d.binId);
    assert multiset(view.value.recentReadings)[r.processed] > 0;
  }

  /** A reading at 96 % fill in the ICU is saved together with a critical alert. */
  lemma IngestCriticalExample(s: Database.Store, clock: AlertGenerator.AlertClock, fmt1: real -> string)
    ensures var r := Ingest(s, SensorData("BIN-TEST-002", "t", 96.0, 22.0, 18.0, "ICU"), clock, fmt1);
      && r.alert.Some? && r.alert.value.level == AlertLevel.Critical
      && r.store.alerts == s.alerts + [r.alert.value]
  {
  }

  /** Ingesting adds the reading's weight to the waste total exactly when it reports zero fill. */
  lemma IngestWaste(s: Database.Store, d: SensorData, clock: AlertGenerator.AlertClock,
                    fmt1: real -> string, now: string)
    ensures Database.GetStatistics(Ingest(s, d, clock, fmt1).store, now).totalWasteCollectedKg
         == Database.GetStatistics(s, now).totalWasteCollectedKg + (if d.fillLevel == 0.0 then d.weightKg else 0.0)
  {
    Database.WasteAppend(s.readings, SensorHandler.ProcessSensorData(d));
  }

  /**
   Empty a bin: `None` when the bin is unknown (the endpoint answers not-found),
   otherwise the store with the bin emptied at `emptiedAt` and its alerts
   resolved at `resolvedAt`.
   */
  function Empty(s: Database.Store, id: string, emptiedAt: string, resolvedAt: string): (r: Option<Database.Store>)
    ensures r == None <==> id !in s.bins
    ensures r.Some? ==> EmptiedStore(s, id, emptiedAt, resolvedAt, r.value)
  {
    if Database.GetBinById(s, id).None? then None
    else
      EmptySteps(s, id, emptiedAt, resolvedAt);
      Some(Database.ResolveAlertsForBin(Database.MarkBinEmptied(s, id, emptiedAt), id, resolvedAt))
  }

  /**
   `t` is `s` after emptying bin `id`: the bin is zeroed with its identity and
   count kept, exactly one zero-fill reading is appended, the bin's alerts are
   resolved at `resolvedAt`, and nothing else changes.
   */
  ghost predicate EmptiedStore(s: Database.Store, id: string, emptiedAt: string, resolvedAt: string, t: Database.Store)
    requires id in s.bins
  {
    && id in t.bins
    && t.bins[id].currentFillLevel == 0.0 && t.bins[id].currentWeightKg == 0.0
    && t.bins[id].status == Normal && t.bins[id].lastEmptied == Some(emptiedAt)
    && t.bins[id].lastUpdated == emptiedAt
    && t.bins[id].binId == s.bins[id].binId && t.bins[id].location == s.bins[id].location
    && t.bins[id].currentTemperature == s.bins[id].currentTemperature
    && t.bins[id].totalReadings == s.bins[id].totalReadings
    && (forall k :: k != id ==> (k in t.bins <==> k in s.bins) && (k in s.bins ==> t.bins[k] == s.bins[k]))
    && t.binOrder == s.binOrder
    && t.readings == s.readings + [Database.EmptiedReading(s.bins[id], id, emptiedAt)]
    && |t.alerts| == |s.alerts|
    && (forall x :: x in Database.GetAlerts(t, true) ==> x.binId != id)
    && (forall i :: 0 <= i < |t.alerts| && (s.alerts[i].binId != id || s.alerts[i].resolved) ==>
          t.alerts[i] == s.alerts[i])
    && (forall i :: 0 <= i < |t.alerts| && s.alerts[i].binId == id && !s.alerts[i].resolved ==>
          Database.SameExceptResolution(t.alerts[i], s.alerts[i]) && t.alerts[i].resolvedAt == Some(resolvedAt))
  }

  lemma EmptySteps(s: Database.Store, id: string, emptiedAt: string, resolvedAt: string)
    requires id in s.bins
    ensures EmptiedStore(s, id, emptiedAt, resolvedAt,
      Database.ResolveAlertsForBin(Database.MarkBinEmptied(s, id, emptiedAt), id, resolvedAt))
  {
    var emptied := Database.MarkBinEmptied(s, id, emptiedAt);
    Database.ResolveClearsActive(emptied, id, resolvedAt);
  }

  lemma EmptyPreservesValid(s: Database.Store, id: string, emptiedAt: string, resolvedAt: string)
    requires Database.Valid(s)
    ensures Empty(s, id, emptiedAt, resolvedAt).Some? ==> Database.Valid(Empty(s, id, emptiedAt, resolvedAt).value)
  {
    Database.MarkBinEmptiedPreservesValid(s, id, emptiedAt);
  }

  /** After emptying, a lookup reports the emptied snapshot. */
  lemma EmptyThenGet(s: Database.Store, id: string, emptiedAt: string, resolvedAt: string)
    requires id in s.bins
    ensures var t := Empty(s, id, emptiedAt, resolvedAt).value;
      var view := Database.GetBinById(t, id);
      && view.Some? && view.value.bin.currentFillLevel == 0.0 && view.value.bin.status == Normal
      && view.value.bin.lastEmptied == Some(emptiedAt)
  {
  }
}

=== FILE: strings.dfy ===
/**
 String helpers the core relies on: Python's substring test (`needle in
 haystack`) and Python's ordering of strings (code point by code point,
 a proper prefix sorting first), with the order laws the alert sort needs.
 */
module Strings {

  /** `p` is a prefix of `s`. */
  predicate IsPrefix(p: string, s: string) {
    |p| <= |s| && s[..|p|] == p
  }

  /** Python's `needle in haystack` for strings: case-sensitive substring search. */
  function Contains(haystack: string, needle: string): (r: bool)
    ensures needle == [] ==> r
    ensures r ==> |needle| <= |haystack|
    decreases |haystack|
  {
    if IsPrefix(needle, haystack) then true
    else if haystack == [] then false
    else Contains(haystack[1..], needle)
  }

  /** The declarative meaning of substring containment: some window equals the needle. */
  ghost predicate OccursAt(haystack: string, needle: string, i: int) {
    0 <= i && i + |needle| <= |haystack| && haystack[i..i + |needle|] == needle
  }

  /** The search agrees with the declarative definition, in both directions. */
  lemma {:induction false} ContainsIffOccurs(haystack: string, needle: string)
    ensures Contains(haystack, needle) <==> exists i :: OccursAt(haystack, needle, i)
    decreases |haystack|
  {
    if IsPrefix(needle, haystack) {
      assert OccursAt(haystack, needle, 0);
    } else if haystack == [] {
    } else {
      ContainsIffOccurs(haystack[1..], needle);
      if exists i :: OccursAt(haystack, needle, i) {
        var i :| OccursAt(haystack, needle, i);
        assert haystack[1..][i - 1..i - 1 + |needle|] == haystack[i..i + |needle|];
        assert OccursAt(haystack[1..], needle, i - 1);
      }
      if exists j :: OccursAt(haystack[1..], needle, j) {
        var j :| OccursAt(haystack[1..], needle, j);
        assert haystack[1..][j..j + |needle|] == haystack[j + 1..j + 1 + |needle|];
        assert OccursAt(haystack, needle, j + 1);
      }
    }
  }

  /** A needle whose first character never occurs in the haystack is not contained in it. */
  lemma {:induction false} ContainsNeedsFirstChar(haystack: string, needle: string)
    requires |needle| > 0 && needle[0] !in haystack
    ensures !Contains(haystack, needle)
    decreases |haystack|
  {
    if haystack != [] {
      assert haystack[0] in haystack;
      assert forall c :: c in haystack[1..] ==> c in haystack;
      ContainsNeedsFirstChar(haystack[1..], needle);
    }
  }

  /** Python's `a <= b` on strings: lexicographic by code point, a proper prefix first. */
  predicate LexLe(a: string, b: string)
    ensures IsPrefix(a, b) ==> LexLe(a, b)
    decreases |a|
  {
    if a == [] then true
    else if b == [] then false
    else if a[0] != b[0] then a[0] < b[0]
    else LexLe(a[1..], b[1..])
  }

  lemma {:induction false} LexLeTotal(a: string, b: string)
    ensures LexLe(a, b) || LexLe(b, a)
    decreases |a|
  {
    if a != [] && b != [] && a[0] == b[0] {
      LexLeTotal(a[1..], b[1..]);
    }
  }

  lemma {:induction false} LexLeAntisymmetric(a: string, b: string)
    requires LexLe(a, b) && LexLe(b, a)
    ensures a == b
    decreases |a|
  {
    if a != [] && b != [] {
      LexLeAntisymmetric(a[1..], b[1..]);
      assert a == [a[0]] + a[1..];
      assert b == [b[0]] + b[1..];
    }
  }

  lemma {:induction false} LexLeTransitive(a: string, b: string, c: string)
    requires LexLe(a, b) && LexLe(b, c)
    ensures LexLe(a, c)
    decreases |a|
  {
    if a != [] && b != [] && c != [] && a[0] == b[0] && b[0] == c[0] {
      LexLeTransitive(a[1..], b[1..], c[1..]);
    }
  }
}
